=== FILE: README.md ===
# Markdown parser of a static site generator, in Dafny

This project models the parser at the heart of a small static site
generator. The parser turns a constrained Markdown dialect into typed inline
spans ("text nodes") and classified blocks. The model also covers the
attribute serialiser of the HTML node class. Each source function is a pure
Dafny function over strings and sequences. Python exceptions become a
`Result` failure, and each regular expression is a hand-written predicate.

Modules, in dependency order:

- `Wrappers` (`wrappers.dfy`): `Option` and `Result`.
- `PyStr` (`pystr.dfy`): the Python `str` builtins the source calls.
  - `split`, `split(sep, 1)`, `strip` and `join`.
  - `count`, `replace(sep, "")` and `find`, which the source never calls, are added to state what `split` and `split(sep, 1)` compute.
  - `isspace`, the whitespace that `strip` removes, with Python's full whitespace set. That set is also what `\s` matches.
- `TextNodes` (`textnodes.dfy`): `TextType`, `TextNode`, and the Markdown each span is read from.
- `HtmlNodes` (`htmlnodes.dfy`): `HTMLNode` and `props_to_html`.
- `Projection` (`projection.dfy`): `text_node_to_html_node`, and its inverse.
- `Delimiter` (`delimiter.dfy`): `split_nodes_delimiter`.
- `Links` (`links.dfy`): the two link and image patterns, `extract_markdown_links`/`extract_markdown_images`, and `split_nodes_link`/`split_nodes_image`.
- `Inline` (`inline.dfy`): `text_to_textnodes`.
- `Blocks` (`blocks.dfy`): `markdown_to_blocks`.
- `BlockTypes` (`blocktypes.dfy`): `block_to_block_type`.

Regular expressions are called with `re.search` or `re.findall` and no
flags. So `.` excludes `\n`, `^` anchors at the start of the string, and
`$` matches at the end or just before one final `\n`. `Search` in
`BlockTypes` says exactly this. `\d` is ASCII only; see "Left out".

Link and image extraction is modelled twice. The source finds all matches,
then splits the remaining text on each match's literal text. The model also
has a leftmost-scan recursion, `SplitText`. `Links.LiteralLoopIsSplitText`
proves the two agree: the first literal occurrence of a match's text is
that match.

Behaviour of the code a reader may not expect:

- **Blocks are not stable under re-segmentation.** A whitespace-only
  interior line becomes an empty line, so `"a\n  \nb"` gives the single
  block `"a\n\nb"`. Segmenting that block again gives two blocks
  (`Blocks.NotIdempotent`).
- **A heading can use any whitespace after the `#`s.** The regex uses
  `\s`, so a tab or a newline is accepted, not only one space
  (`BlockTypes.NewlineHeading`).
- **Code blocks are single-line.** The code rule needs the whole block on
  one line of at least seven characters. A fenced multi-line code block is
  classified as a paragraph (`BlockTypes.CodeRule`,
  `BlockTypes.FencedBlockIsParagraph`).
- **`props_to_html` with no props returns `None`, not `""`.**
- **"A url exactly on links and images" is a property of the parser, not
  of the span.** The `TextNode` datatype does not enforce it;
  `Inline.TextToTextNodesUrls` proves the parser only produces spans that
  satisfy it.
- **An empty styled span is lost.** Empty pieces of a split are dropped.
  An empty plain piece renders as nothing, so `"**b**"` still renders back
  to itself (`Delimiter.StyledAtStart`). An empty piece between a pair of
  delimiters, as in `"****"`, takes its markup with it
  (`Delimiter.EmptySpanLost`). The round trip is proved for texts
  whose delimiter pairs each enclose some text
  (`Inline.TextToTextNodesSource`).
- **No "unknown kind" error.** The kind of a span is a closed datatype, so
  the fallback exception in `text_node_to_html_node` cannot be raised and
  is not modelled.

## Model

| member | source | states |
|---|---|---|
| Projection.TextNodeToHtmlNode | src/functions.py:7-47 | The leaf's tag is b, i, code, a or img for the five marked kinds and none for plain text. Props are present exactly for links and images. The value is the span's text except for an image. |
| Projection.ProjectionRoundTrip | src/functions.py:7-47 | Reading the leaf back gives the span again. The only thing lost is a url on a span that is neither a link nor an image. |
| Projection.ProjectionInjective | src/functions.py:7-47 | Two spans with the same leaf are equal up to an unused url. |
| Projection.ProjectionAttributes | src/functions.py:29-43 | A link renders as ` href="url"`; an image as ` src="url" alt="text"`, in that order; other kinds render no attributes. |
| HtmlNodes.Attributes | src/htmlnode.py:17-19 | The serialisation is empty exactly when there are no pairs. |
| HtmlNodes.PropsToHtml | src/htmlnode.py:15-20 | The result is None exactly when props are missing or empty. Otherwise it is the serialisation of the pairs. |
| HtmlNodes.AttributesAppend | src/htmlnode.py:17-19 | Serialising two lists of pairs is serialising each in order and concatenating. |
| HtmlNodes.AttributesShape | src/htmlnode.py:19 | The serialisation starts with a space when there are pairs. Its length is the sum over pairs of key length + value length + 4. |
| HtmlNodes.NoEscaping | src/htmlnode.py:19 | Quotes in a value are inserted verbatim, so one crafted value serialises the same as two pairs. |
| Delimiter.TagPieces | src/functions.py:65-68 | The spans are non-empty, carry no url and are plain or of the requested kind. Their texts concatenate to the concatenation of the pieces. |
| Delimiter.TagPiecesDropsEmpty | src/functions.py:65-68 | Tagging is the plain/kind alternation of the pieces with the empty spans dropped. |
| Delimiter.TagPiecesAll | src/functions.py:65-68 | With no empty piece, tagging is exactly the alternation. |
| Delimiter.AlternateSource | src/functions.py:62-68 | Rendering the alternation of an odd number of pieces puts the kind's markup back between them. |
| Delimiter.SplitNode | src/functions.py:59-68 | A non-plain span passes through. An empty delimiter fails. A plain span fails exactly when it holds an odd number of delimiters, with that delimiter and text in the error. On success the texts concatenate to the text with every delimiter removed. |
| Delimiter.SplitNodeAlternates | src/functions.py:62-68 | With no empty piece, the span texts are the split pieces and re-join to the text. There are count + 1 spans, and their kinds alternate plain, requested kind, plain. |
| Delimiter.TagPiecesSource | src/functions.py:65-68 | Tagging an odd number of pieces whose odd-numbered pieces have text renders back to the pieces joined by the markup; the dropped empty plain pieces render as nothing. |
| Delimiter.NonEmptySource | src/functions.py:67-68 | Dropping spans without text changes nothing in the rendered source when every such span is plain. |
| Delimiter.SplitNodeSource | src/functions.py:62-68 | A plain span whose delimiter pairs each enclose some text, split on its kind's own markup, renders back to its text. Text may start or end with a styled span. |
| Delimiter.StyledAtStart | src/functions.py:62-68 | A text that is a single bold span `**b**` (b non-empty, no `*`) is solid and splits into exactly the one bold span `b`, which renders back to the text: leading and trailing empty plain pieces cost nothing. |
| Delimiter.EmptySpanLost | src/functions.py:62-68 | `"****"` has an empty piece between delimiters and splits into no span at all. |
| Delimiter.SplitNodesDelimiter | src/functions.py:50-69 | The stage fails exactly when some plain span is unbalanced, and the error is the first failing span's. On success the spans that are neither plain nor of the requested kind appear unchanged and in order. |
| Delimiter.SplitNodesDelimiterAppend | src/functions.py:57-69 | Splitting a concatenation is splitting each part, with results in input order and the first failure winning. |
| Delimiter.SplitNodesDelimiterSingle | src/functions.py:57-69 | A one-span list is split as that span is. |
| Delimiter.SplitNodesDelimiterNonEmpty | src/functions.py:65-68 | When every styled input span has text, every output span has text: an empty plain span yields nothing. |
| Delimiter.SplitNodesDelimiterUrls | src/functions.py:59-68 | A stage for a kind without a url keeps "url exactly on links and images". |
| Delimiter.SplitNodesDelimiterSource | src/functions.py:57-69 | A stage whose plain spans have no empty piece between delimiters keeps the rendered Markdown source of the list. |
| Links.LinkAt | src/functions.py:78 | A match found at the start of the text is well formed and its rendering is a prefix of the text. |
| Links.LinkAtComplete | src/functions.py:78 | Every well-formed link the text starts with is the one found. |
| Links.MatchAt | src/functions.py:72-79 | A link or image match found at the start is well formed and its literal starts the text. |
| Links.MatchAtComplete | src/functions.py:72-79 | Any match the text starts with is the one found. |
| Links.FirstMatch | src/functions.py:72-79 | The first match found lies at the leftmost position where any match starts; none found means there is no match anywhere. |
| Links.FindAll | src/functions.py:72-79 | `re.findall` returns only well-formed matches: no anchor holds a bracket and no url a parenthesis. |
| Links.FindAllEmpty | src/functions.py:72-79 | `re.findall` returns nothing exactly when the pattern matches at no position of the text. |
| Links.FindAllFirst | src/functions.py:72-79 | Scanning finds the leftmost match, then continues after it without overlap. |
| Links.LiteralIsLeftmost | src/functions.py:99 | The first occurrence of the first match's literal text is at that match. |
| Links.NoLiteralBeforeFirst | src/functions.py:126 | No occurrence of the literal text starts before the first match. |
| Links.SplitTextStep | src/functions.py:100-103 | One step emits the text before the match, then the match, then the rest. Rendered source and match list are both kept. |
| Links.SplitText | src/functions.py:97-105 | The spans render back to the text, and the extracted spans are exactly the text's matches in order. Plain fragments are non-empty and url-free; extracted spans carry a url. |
| Links.SplitNode | src/functions.py:89-105 | A non-plain span, or one without matches, passes through. Otherwise the spans render back to it and carry exactly its matches. |
| Links.SplitNodes | src/functions.py:82-106 | The rendered source of the list is kept. No empty plain span appears where there was none. |
| Links.SplitNodesAppend | src/functions.py:88-106 | Nodes are handled one at a time, results in input order. |
| Links.SplitNodesUrls | src/functions.py:82-106 | Splitting keeps "url exactly on links and images". |
| Links.SplitNodesLink | src/functions.py:82-106 | Rendered source is kept; no empty plain span appears where there was none. |
| Links.SplitNodesImage | src/functions.py:109-133 | Rendered source is kept; no empty plain span appears where there was none. |
| Links.LiteralLoop | src/functions.py:97-105 | When the loop as written finishes, its spans render back to the text, and the matches recorded in its link (image) spans are exactly the matches it was given, in order. |
| Links.LiteralLoopIsSplitText | src/functions.py:97-105 | The source's loop, splitting on each match's literal, always finds that literal and builds the same spans as the leftmost scan. |
| Inline.TextToTextNodes | src/functions.py:136-143 | On success no plain span is empty. A failure is an unmatched `**`, `_` or backtick. |
| Inline.TextToTextNodesUrls | src/functions.py:136-143 | Every span yielded has a url exactly when it is a link or an image. |
| Inline.TextToTextNodesSource | src/functions.py:136-143 | When no delimiter stage meets an empty piece between a pair of delimiters, the spans rendered back as Markdown give the text. |
| Inline.EmptyText | src/functions.py:136-143 | The empty text yields no spans. |
| Inline.PlainTextUnchanged | src/functions.py:136-143 | Text without markup characters comes back as one plain span. |
| Inline.NoBracketNoMatch | src/functions.py:72-79 | Without a `[` neither pattern matches. |
| Blocks.MarkdownToBlocks | src/functions.py:146-160 | Blocks are at most one more than the `\n\n` count. Each is non-empty, has no outer whitespace, and every line equals its own strip. There are no blocks exactly when the document is whitespace. |
| Blocks.CleanBlocks | src/functions.py:153-159 | No more blocks than candidates; none exactly when every candidate is whitespace. |
| Blocks.CleanBlocksClean | src/functions.py:153-159 | Every block produced is clean. |
| Blocks.StripEach | src/functions.py:157 | The list comprehension keeps the number of lines, and its k-th line is the k-th input line stripped. |
| Blocks.CleanBlock | src/functions.py:154-158 | A candidate cleans to the empty text exactly when it is all whitespace; otherwise the block begins and ends with the first and last characters of the stripped candidate. |
| Blocks.CleanBlockClean | src/functions.py:154-158 | Cleaning a non-blank block yields a clean block whose lines are the stripped lines of the stripped block. |
| Blocks.CleanLines | src/functions.py:156-158 | Re-splitting the re-joined lines gives the stripped lines, and stripping them again changes nothing. |
| Blocks.CleanBlocksAppend | src/functions.py:153-159 | Block order follows candidate order. |
| Blocks.CleanBlockFixed | src/functions.py:154-158 | Cleaning a clean block changes nothing. |
| Blocks.CleanBlocksFixed | src/functions.py:153-159 | Cleaning a list of clean blocks changes nothing. |
| Blocks.SingleBlock | src/functions.py:146-160 | A clean block without a blank line is segmented into itself. |
| Blocks.AllSpaceSplit | src/functions.py:152-155 | A document is whitespace exactly when every candidate block is. |
| Blocks.NotIdempotent | src/functions.py:146-160 | `"a\n  \nb"` gives one block `"a\n\nb"`, which gives two blocks. |
| BlockTypes.BlockToBlockType | src/functions.py:163-177 | The result is a kind exactly when that kind's rule holds. It is a paragraph exactly when no rule holds. |
| BlockTypes.RulesExclusive | src/functions.py:165-175 | No block satisfies two rules, so the order of the tests never decides. |
| BlockTypes.TypeOpens | src/functions.py:163-175 | A non-paragraph block starts with its kind's opening character. |
| BlockTypes.HashRun | src/functions.py:166 | The run counted is all `#` and is followed by a non-`#`. |
| BlockTypes.HeadingShape | src/functions.py:166 | The heading pattern matches exactly a run of 1 to 6 `#`, one whitespace character, and at least one further character with no newline. |
| BlockTypes.SearchBody | src/functions.py:166-174 | A search succeeds exactly when the pattern matches the text with one final newline removed. |
| BlockTypes.HeadingRule | src/functions.py:166 | The heading rule holds exactly when the block's body is a heading line. |
| BlockTypes.CodeRule | src/functions.py:168 | The code rule holds exactly when the body is one line of at least seven characters, opening and closing with three backticks. |
| BlockTypes.FencedBlockIsParagraph | src/functions.py:168 | A fenced code block over several lines is a paragraph. |
| BlockTypes.LineSearch | src/functions.py:170-175 | On one line the three line patterns are `>` plus a character, `- ` plus a character, and a digit, `. ` plus a character. |
| BlockTypes.QuoteRule | src/functions.py:170 | The quote rule holds exactly when every line is a quote line. |
| BlockTypes.UnorderedRule | src/functions.py:172 | The unordered rule holds exactly when every line is an item line. |
| BlockTypes.OrderedRule | src/functions.py:174 | The ordered rule holds exactly when every line is a numbered line. |
| BlockTypes.TwoLines | src/functions.py:164-175 | Two item lines make an unordered list, and two numbered lines an ordered list. |
| BlockTypes.UncheckedNumbering | src/functions.py:174 | Numbers are not compared: `"7. x\n3. y"` is an ordered list. |
| BlockTypes.TwoDigitNumber | src/functions.py:174 | A two-digit number breaks an ordered list. |
| BlockTypes.EmptyBlock | src/functions.py:176-177 | The empty block is a paragraph. |
| BlockTypes.NewlineHeading | src/functions.py:166 | `"#\nx"` is a heading. |
| BlockTypes.SevenHashes | src/functions.py:166 | Seven `#` make no heading. |
| BlockTypes.DocumentExample | src/functions.py:163-177 | A three-block document (heading, paragraph, list) classifies as heading, paragraph and unordered list. |
| PyStr.Split | src/functions.py:62 | `split` gives at least one piece; the first piece is a prefix of the text, and a single piece is the whole text. |
| PyStr.SplitCount | src/functions.py:62-63 | `split` yields one more piece than there are occurrences. |
| PyStr.JoinSplit | src/functions.py:156-158 | Joining the pieces of a split with the separator gives the text back. |
| PyStr.ConcatSplit | src/functions.py:62-68 | The pieces concatenate to the text with every separator removed. |
| PyStr.Find | src/functions.py:99 | The occurrence found is the first one, and none means there is none. |
| PyStr.SplitOnce | src/functions.py:99 | `split(sep, 1)` gives one piece exactly when the separator is absent, and otherwise the text on both sides of its first occurrence. |
| PyStr.Strip | src/functions.py:154 | The stripped text is empty exactly when the text is all whitespace. Otherwise it neither starts nor ends with whitespace and is no longer than the text. |
| PyStr.StripTrimmed | src/functions.py:154 | The stripped text is a contiguous part of the text, with only whitespace before and after it. |
| PyStr.StripIdempotent | src/functions.py:157 | A text without outer whitespace is its own strip. |

## Left out

- `\d` in the ordered-list pattern is modelled as ASCII `0`-`9`. Python's
  `\d` also accepts other Unicode decimal digits.
- `LeafNode`, `TextNode` and `BlockType` are defined in files that are not
  part of this model. They are Dafny datatypes with the fields the parser
  passes them. `Projection.AsHtmlNode` assumes a leaf is an `HTMLNode` with
  no children.
- `HTMLNode.__init__` is the datatype `HtmlNodes.HtmlNode`, whose fields
  default to `None` as the keyword arguments do.
- `HTMLNode.to_html` and `__repr__` are not modelled. `to_html` only raises
  `NotImplementedError` and `__repr__` is debugging output.
- Props are an ordered list of pairs, not a dict. The parser never builds a
  dict with a repeated key.
- The `case _` exception in `text_node_to_html_node` is not modelled. It
  cannot be reached, because the span kind is a closed datatype.
- File I/O, the command line and site generation are outside the parser.
- Inline.TextToTextNodesSource: the round trip is stated only for texts
  where no delimiter stage meets an empty piece between a pair of
  delimiters. Such a piece would become an empty styled span, which the
  source drops together with its markup (`Delimiter.EmptySpanLost`).
- Projection.ProjectionRoundTrip: a url on a span that is neither a link
  nor an image is not recovered, because the projection drops it.

=== FILE: blocks.dfy ===
/** Cutting a document into blocks: the text between blank-line separators,
    stripped, with every line of it stripped. */
module Blocks {

  import opened PyStr

  /** Every piece stripped, in order. */
  function StripEach(lines: seq<string>): (r: seq<string>)
    ensures |r| == |lines|
    ensures forall k :: 0 <= k < |lines| ==> r[k] == Strip(lines[k])
  {
    if |lines| == 0 then [] else [Strip(lines[0])] + StripEach(lines[1..])
  }

  /** One non-blank candidate cleaned: stripped as a whole, then every one
      of its lines stripped and the lines joined again. */
  function CleanBlock(block: string): (r: string)
    ensures r == "" <==> AllSpace(block)
    ensures r != "" ==> r[0] == Strip(block)[0] && r[|r| - 1] == Strip(block)[|Strip(block)| - 1]
  {
    var t := Strip(block);
    if t == "" then
      assert Split(t, "\n") == [""];
      assert StripEach([""]) == [Strip("")];
      StripLines(t)
    else
      CleanFirst(t);
      CleanLast(t);
      StripLines(t)
  }

  /** Every line stripped and the lines joined again. */
  function StripLines(t: string): string {
    Join(StripEach(Split(t, "\n")), "\n")
  }

  /** What every block satisfies: not empty, no whitespace at either end,
      and no line with whitespace at either end. */
  predicate IsClean(block: string) {
    && |block| > 0
    && !IsSpace(block[0])
    && !IsSpace(block[|block| - 1])
    && StripEach(Split(block, "\n")) == Split(block, "\n")
  }

  /** The loop over the candidates: blank ones are dropped, the others
      cleaned, and order is kept. */
  function CleanBlocks(candidates: seq<string>): (blocks: seq<string>)
    ensures |blocks| <= |candidates|
    ensures blocks == [] <==> forall k :: 0 <= k < |candidates| ==> AllSpace(candidates[k])
    decreases |candidates|
  {
    if |candidates| == 0 then []
    else
      var rest := CleanBlocks(candidates[1..]);
      assert forall k :: 1 <= k < |candidates| ==> candidates[k] == candidates[1..][k - 1];
      if Strip(candidates[0]) == "" then rest else [CleanBlock(candidates[0])] + rest
  }

  /** Every block is clean. */
  lemma {:induction false} CleanBlocksClean(candidates: seq<string>)
    ensures forall k :: 0 <= k < |CleanBlocks(candidates)| ==> IsClean(CleanBlocks(candidates)[k])
    decreases |candidates|
  {
    if |candidates| > 0 {
      var rest := CleanBlocks(candidates[1..]);
      CleanBlocksClean(candidates[1..]);
      if Strip(candidates[0]) != "" {
        var first := CleanBlock(candidates[0]);
        CleanBlockClean(candidates[0]);
        AllCleanCons(first, rest);
      }
    }
  }

  lemma AllCleanCons(first: string, rest: seq<string>)
    requires IsClean(first)
    requires forall k :: 0 <= k < |rest| ==> IsClean(rest[k])
    ensures forall k :: 0 <= k < |[first] + rest| ==> IsClean(([first] + rest)[k])
  {
    forall k | 0 <= k < |[first] + rest|
      ensures IsClean(([first] + rest)[k])
    {
      if k > 0 {
        assert ([first] + rest)[k] == rest[k - 1];
      }
    }
  }

  /** `markdown_to_blocks`: the text between occurrences of "\n\n",
      cleaned, blank candidates dropped. */
  function MarkdownToBlocks(markdown: string): (blocks: seq<string>)
    ensures |blocks| <= Count(markdown, "\n\n") + 1
    ensures forall k :: 0 <= k < |blocks| ==> IsClean(blocks[k])
    ensures blocks == [] <==> AllSpace(markdown)
  {
    SplitCount(markdown, "\n\n");
    AllSpaceSplit(markdown, "\n\n");
    CleanBlocksClean(Split(markdown, "\n\n"));
    CleanBlocks(Split(markdown, "\n\n"))
  }

  /** A cleaned candidate keeps the first and last character of the
      stripped candidate, and its lines are the stripped lines of it. */
  lemma CleanBlockClean(block: string)
    requires Strip(block) != ""
    ensures IsClean(CleanBlock(block))
    ensures Split(CleanBlock(block), "\n") == StripEach(Split(Strip(block), "\n"))
  {
    var t := Strip(block);
    CleanLines(t);
    CleanFirst(t);
    CleanLast(t);
  }

  /** Rejoined stripped lines split back into the same lines, each of
      which is its own strip. */
  lemma CleanLines(t: string)
    ensures Split(StripLines(t), "\n") == StripEach(Split(t, "\n"))
    ensures StripEach(StripEach(Split(t, "\n"))) == StripEach(Split(t, "\n"))
  {
    var lines := Split(t, "\n");
    SplitCharFree(t, '\n');
    StrippedLines(lines, StripEach(lines));
  }

  /** The stripped lines, given pointwise, of lines without a newline. */
  lemma StrippedLines(lines: seq<string>, cleaned: seq<string>)
    requires |lines| > 0 && cleaned == StripEach(lines)
    requires forall k :: 0 <= k < |lines| ==> '\n' !in lines[k]
    ensures Split(Join(cleaned, "\n"), "\n") == cleaned
    ensures StripEach(cleaned) == cleaned
  {
    assert forall k :: 0 <= k < |cleaned| ==> '\n' !in cleaned[k];
    forall k | 0 <= k < |cleaned|
      ensures StripEach(cleaned)[k] == cleaned[k]
    {
      StripIdempotent(cleaned[k]);
    }
    assert StripEach(cleaned) == cleaned;
    SplitJoinChar(cleaned, '\n');
  }

  /** Line cleaning keeps a non-space first character. */
  lemma CleanFirst(t: string)
    requires |t| > 0 && !IsSpace(t[0])
    ensures |StripLines(t)| > 0 && StripLines(t)[0] == t[0]
  {
    var lines := Split(t, "\n");
    var first := lines[0];
    assert |first| > 0 && first[0] == t[0] by {
      FirstLine(t);
    }
    var cleaned := StripEach(lines);
    assert cleaned[0] == Strip(first);
    FirstOfCleaned(first, cleaned);
  }

  /** The first line of a string that does not start with whitespace
      starts with the string's first character. */
  lemma FirstLine(t: string)
    requires |t| > 0 && !IsSpace(t[0])
    ensures |Split(t, "\n")[0]| > 0 && Split(t, "\n")[0][0] == t[0]
  {
    var lines := Split(t, "\n");
    JoinSplit(t, "\n");
    JoinFirstChar(lines, "\n");
  }

  /** Joining lines whose first is the strip of `first` keeps the first
      character of `first` when that is not whitespace. */
  lemma FirstOfCleaned(first: string, cleaned: seq<string>)
    requires |cleaned| > 0 && cleaned[0] == Strip(first)
    requires |first| > 0 && !IsSpace(first[0])
    ensures |Join(cleaned, "\n")| > 0 && Join(cleaned, "\n")[0] == first[0]
  {
    StripKeepsFirst(first);
    JoinFirstChar(cleaned, "\n");
  }

  /** Line cleaning keeps a non-space last character. */
  lemma CleanLast(t: string)
    requires |t| > 0 && !IsSpace(t[|t| - 1])
    ensures |StripLines(t)| > 0 && StripLines(t)[|StripLines(t)| - 1] == t[|t| - 1]
  {
    var lines := Split(t, "\n");
    var n := |lines|;
    var last := lines[n - 1];
    assert |last| > 0 && last[|last| - 1] == t[|t| - 1] by {
      LastLine(t);
    }
    var cleaned := StripEach(lines);
    assert cleaned[n - 1] == Strip(last);
    LastOfCleaned(last, cleaned);
  }

  /** The last line of a string that does not end in whitespace ends with
      the string's last character. */
  lemma LastLine(t: string)
    requires |t| > 0 && !IsSpace(t[|t| - 1])
    ensures |Split(t, "\n")[|Split(t, "\n")| - 1]| > 0
    ensures Split(t, "\n")[|Split(t, "\n")| - 1][|Split(t, "\n")[|Split(t, "\n")| - 1]| - 1] == t[|t| - 1]
  {
    var lines := Split(t, "\n");
    JoinSplit(t, "\n");
    JoinLastChar(lines, "\n");
  }

  /** Joining lines whose last is the strip of `last` keeps the last
      character of `last` when that is not whitespace. */
  lemma LastOfCleaned(last: string, cleaned: seq<string>)
    requires |cleaned| > 0 && cleaned[|cleaned| - 1] == Strip(last)
    requires |last| > 0 && !IsSpace(last[|last| - 1])
    ensures |Join(cleaned, "\n")| > 0 && Join(cleaned, "\n")[|Join(cleaned, "\n")| - 1] == last[|last| - 1]
  {
    StripKeepsLast(last);
    JoinLastChar(cleaned, "\n");
  }

  /** A string is whitespace exactly when each of its characters is. */
  lemma AllSpaceChars(s: string)
    ensures AllSpace(s) <==> forall c :: c in s ==> IsSpace(c)
  {
    if forall c :: c in s ==> IsSpace(c) {
      forall k | 0 <= k < |s|
        ensures IsSpace(s[k])
      {
        assert s[k] in s;
      }
    }
  }

  /** A string is whitespace exactly when every piece of its split on a
      whitespace separator is. */
  lemma AllSpaceSplit(s: string, sep: string)
    requires |sep| > 0 && AllSpace(sep)
    ensures AllSpace(s) <==> forall k :: 0 <= k < |Split(s, sep)| ==> AllSpace(Split(s, sep)[k])
  {
    var parts := Split(s, sep);
    JoinSplit(s, sep);
    AllSpaceChars(s);
    AllSpaceChars(sep);
    if AllSpace(s) {
      forall k | 0 <= k < |parts|
        ensures AllSpace(parts[k])
      {
        forall c | c in parts[k]
          ensures IsSpace(c)
        {
          JoinCovers(parts, sep, k, c);
        }
        AllSpaceChars(parts[k]);
      }
    } else {
      var c :| c in s && !IsSpace(c);
      JoinFrom(parts, sep, c);
      var k :| 0 <= k < |parts| && c in parts[k];
      AllSpaceChars(parts[k]);
    }
  }

  /** Blocks are produced candidate by candidate, in order. */
  lemma {:induction false} CleanBlocksAppend(a: seq<string>, b: seq<string>)
    ensures CleanBlocks(a + b) == CleanBlocks(a) + CleanBlocks(b)
    decreases |a|
  {
    if |a| == 0 {
      assert a + b == b;
    } else {
      assert (a + b)[0] == a[0];
      assert (a + b)[1..] == a[1..] + b;
      CleanBlocksAppend(a[1..], b);
    }
  }

  /** A clean block is its own cleaning. */
  lemma CleanBlockFixed(block: string)
    requires IsClean(block)
    ensures CleanBlock(block) == block
  {
    StripIdempotent(block);
    JoinSplit(block, "\n");
  }

  /** A clean block with no blank-line separator inside is segmented into
      itself alone. */
  lemma SingleBlock(block: string)
    requires IsClean(block) && Count(block, "\n\n") == 0
    ensures MarkdownToBlocks(block) == [block]
  {
    var parts := Split(block, "\n\n");
    SplitCount(block, "\n\n");
    JoinSplit(block, "\n\n");
    assert parts == [block];
    CleanBlockFixed(block);
    assert Strip(block) != "";
    assert parts[1..] == [];
  }

  /** Segmenting is not idempotent: a line holding only spaces is emptied
      by line cleaning, which puts a blank-line separator inside the block,
      and segmenting the result again cuts it in two. */
  lemma NotIdempotent()
    ensures MarkdownToBlocks("a\n  \nb") == ["a\n\nb"]
    ensures MarkdownToBlocks("a\n\nb") == ["a", "b"]
  {
    var s := "a\n  \nb";
    OneCandidate(s);
    SpacedLineCleaned();
    TwoCandidates();
  }

  /** "a\n  \nb" holds no blank-line separator. */
  lemma OneCandidate(s: string)
    requires s == "a\n  \nb"
    ensures MarkdownToBlocks(s) == [CleanBlock(s)]
  {
    var s1, s2, s3, s4 := s[1..], s[2..], s[3..], s[4..];
    assert s1 == "\n  \nb" && s2 == "  \nb" && s3 == " \nb" && s4 == "\nb";
    assert s4[..2][1] == 'b' && s4[1..] == "b";
    assert Count(s4, "\n\n") == 0;
    assert s3[..2][0] == ' ' && s3[1..] == s4;
    assert Count(s3, "\n\n") == 0;
    assert s2[..2][0] == ' ' && s2[1..] == s3;
    assert Count(s2, "\n\n") == 0;
    assert s1[..2][1] == ' ' && s1[1..] == s2;
    assert Count(s1, "\n\n") == 0;
    assert s[..2][0] == 'a';
    assert Count(s, "\n\n") == 0;
    var parts := Split(s, "\n\n");
    SplitNone(s, "\n\n");
    StripIdempotent(s);
    assert parts[1..] == [];
  }

  /** Its three lines are "a", two spaces and "b"; the middle one is
      emptied. */
  lemma SpacedLineCleaned()
    ensures CleanBlock("a\n  \nb") == "a\n\nb"
  {
    var s := "a\n  \nb";
    calc {
      CleanBlock(s);
      StripLines(Strip(s));
      { StripIdempotent(s); }
      StripLines(s);
      Join(StripEach(Split(s, "\n")), "\n");
      { SpacedLines(); }
      Join(StripEach(["a", "  ", "b"]), "\n");
      { SpacedLinesStripped(); }
      Join(["a", "", "b"], "\n");
      { JoinExample(); }
      "a\n\nb";
    }
  }

  lemma SpacedLines()
    ensures Split("a\n  \nb", "\n") == ["a", "  ", "b"]
  {
    SplitAbsent("b", "\n");
    SplitAfter("  ", "\n", "b");
    assert "  " + "\n" + "b" == "  \nb";
    SplitAfter("a", "\n", "  \nb");
    assert "a" + "\n" + "  \nb" == "a\n  \nb";
  }

  lemma SpacedLinesStripped()
    ensures StripEach(["a", "  ", "b"]) == ["a", "", "b"]
  {
    var lines := ["a", "  ", "b"];
    assert Strip("  ") == "";
    StripIdempotent("a");
    StripIdempotent("b");
  }

  lemma JoinExample()
    ensures Join(["a", "", "b"], "\n") == "a\n\nb"
  {
    var cleaned := ["a", "", "b"];
    var tail := ["", "b"];
    assert cleaned[1..] == tail;
    assert tail[1..] == ["b"];
    assert Join(tail, "\n") == "" + "\n" + "b" == "\nb";
    assert Join(cleaned, "\n") == "a" + "\n" + "\nb" == "a\n\nb";
  }

  /** "a\n\nb" is two candidates, "a" and "b". */
  lemma TwoCandidates()
    ensures MarkdownToBlocks("a\n\nb") == ["a", "b"]
  {
    var t := "a\n\nb";
    SplitAbsent("b", "\n\n");
    SplitAfter("a", "\n\n", "b");
    assert "a" + "\n\n" + "b" == t;
    SingleLine("a");
    SingleLine("b");
    var parts := Split(t, "\n\n");
    assert parts == ["a", "b"];
    CleanBlocksFixed(parts);
  }

  /** A one-character non-space string is a clean block. */
  lemma SingleLine(x: string)
    requires |x| == 1 && !IsSpace(x[0])
    ensures IsClean(x)
  {
    StripIdempotent(x);
    SplitAbsent(x, "\n");
  }

  /** Clean blocks are segmented candidate for candidate into themselves. */
  lemma {:induction false} CleanBlocksFixed(blocks: seq<string>)
    requires forall k :: 0 <= k < |blocks| ==> IsClean(blocks[k])
    ensures CleanBlocks(blocks) == blocks
    decreases |blocks|
  {
    if |blocks| > 0 {
      var b, rest := blocks[0], blocks[1..];
      assert CleanBlock(b) == b && Strip(b) != "" by {
        assert IsClean(b);
        CleanBlockFixed(b);
        StripIdempotent(b);
      }
      assert forall k :: 0 <= k < |rest| ==> IsClean(rest[k]) by {
        assert forall k :: 0 <= k < |rest| ==> rest[k] == blocks[k + 1];
      }
      CleanBlocksFixed(rest);
      HeadTail(blocks);
    }
  }

  lemma HeadTail(s: seq<string>)
    requires |s| > 0
    ensures s == [s[0]] + s[1..]
  {
  }
}

=== FILE: blocktypes.dfy ===
/** `block_to_block_type`: a block is given the type of the first of five
    pattern rules it satisfies, and is a paragraph when it satisfies none. */
module BlockTypes {

  import opened PyStr

  datatype BlockType = Paragraph | Heading | Code | Quote | UnorderedList | OrderedList

  /** The five regular expressions the rules search with, in rule order.
      Each is anchored by `^` at the start and by `$` at the end. */
  datatype Pattern =
    | HeadingPattern    // #{1,6}\s{1}.+
    | CodePattern       // `{3}.+`{3}
    | QuotePattern      // \>.+
    | UnorderedPattern  // \- .+
    | OrderedPattern    // \d\. .+

  /** The type a block gets when the rule of `p` is the first that holds. */
  function TypeOf(p: Pattern): BlockType {
    match p
    case HeadingPattern => Heading
    case CodePattern => Code
    case QuotePattern => Quote
    case UnorderedPattern => UnorderedList
    case OrderedPattern => OrderedList
  }

  /** `\d`, read as the ASCII digits. */
  predicate IsDigit(c: char) {
    '0' <= c <= '9'
  }

  /** `.+`: at least one character, and no newline among them. */
  predicate Dots(t: string) {
    |t| > 0 && '\n' !in t
  }

  predicate AllHash(t: string) {
    forall k :: 0 <= k < |t| ==> t[k] == '#'
  }

  /** The pattern without its anchors matches the whole of `t`, for some
      way of choosing the number of `#` and the extent of each `.+` (a
      backtracking matcher tries them all). */
  predicate FullMatch(p: Pattern, t: string) {
    match p
    case HeadingPattern =>
      exists k :: 1 <= k <= 6 && k < |t| && AllHash(t[..k]) && IsSpace(t[k]) && Dots(t[k + 1..])
    case CodePattern =>
      |t| >= 6 && t[..3] == "```" && t[|t| - 3..] == "```" && Dots(t[3..|t| - 3])
    case QuotePattern =>
      |t| >= 1 && t[0] == '>' && Dots(t[1..])
    case UnorderedPattern =>
      |t| >= 2 && t[..2] == "- " && Dots(t[2..])
    case OrderedPattern =>
      |t| >= 3 && IsDigit(t[0]) && t[1..3] == ". " && Dots(t[3..])
  }

  /** `re.search("^P$", s)` without flags: `^` matches only at the start,
      and `$` at the very end or just before a newline that ends `s`. */
  predicate Search(p: Pattern, s: string) {
    || FullMatch(p, s)
    || (|s| > 0 && s[|s| - 1] == '\n' && FullMatch(p, s[..|s| - 1]))
  }

  /** `all(re.search("^P$", line) for line in lines)` */
  predicate AllMatch(p: Pattern, lines: seq<string>) {
    forall k :: 0 <= k < |lines| ==> Search(p, lines[k])
  }

  /** The rule of `p`: the heading and code patterns are searched in the
      whole block, the other three in every line of it. */
  predicate Rule(p: Pattern, block: string) {
    if p == HeadingPattern || p == CodePattern then Search(p, block)
    else AllMatch(p, Split(block, "\n"))
  }

  /** `block_to_block_type`. The rules are tried in order, but at most one
      of them can hold, so the type is that of the rule that holds,
      whichever it is, and PARAGRAPH exactly when none does. */
  function BlockToBlockType(block: string): (r: BlockType)
    ensures forall p :: r == TypeOf(p) <==> Rule(p, block)
    ensures r == Paragraph <==> forall p :: !Rule(p, block)
  {
    RulesExclusive(block);
    if Rule(HeadingPattern, block) then Heading
    else if Rule(CodePattern, block) then Code
    else if Rule(QuotePattern, block) then Quote
    else if Rule(UnorderedPattern, block) then UnorderedList
    else if Rule(OrderedPattern, block) then OrderedList
    else Paragraph
  }

  /** The character every match of `p` starts with. */
  predicate Opens(p: Pattern, c: char) {
    match p
    case HeadingPattern => c == '#'
    case CodePattern => c == '`'
    case QuotePattern => c == '>'
    case UnorderedPattern => c == '-'
    case OrderedPattern => IsDigit(c)
  }

  lemma MatchOpens(p: Pattern, t: string)
    requires FullMatch(p, t)
    ensures |t| > 0 && Opens(p, t[0])
  {
    match p
    case HeadingPattern =>
      var k :| 1 <= k <= 6 && k < |t| && AllHash(t[..k]) && IsSpace(t[k]) && Dots(t[k + 1..]);
      assert t[..k][0] == t[0];
    case CodePattern =>
      assert t[..3][0] == t[0];
    case QuotePattern =>
    case UnorderedPattern =>
      assert t[..2][0] == t[0];
    case OrderedPattern =>
  }

  lemma SearchOpens(p: Pattern, s: string)
    requires Search(p, s)
    ensures |s| > 0 && Opens(p, s[0])
  {
    if FullMatch(p, s) {
      MatchOpens(p, s);
    } else {
      MatchOpens(p, s[..|s| - 1]);
    }
  }

  /** Every rule fixes the block's first character. */
  lemma RuleOpens(p: Pattern, block: string)
    requires Rule(p, block)
    ensures |block| > 0 && Opens(p, block[0])
  {
    if p == HeadingPattern || p == CodePattern {
      SearchOpens(p, block);
    } else {
      var lines := Split(block, "\n");
      assert Search(p, lines[0]);
      SearchOpens(p, lines[0]);
      JoinSplit(block, "\n");
      JoinFirstChar(lines, "\n");
    }
  }

  /** No block satisfies two rules: they want different first characters. */
  lemma RulesExclusive(block: string)
    ensures forall p, q :: Rule(p, block) && Rule(q, block) ==> p == q
  {
    forall p | Rule(p, block)
      ensures |block| > 0 && Opens(p, block[0])
    {
      RuleOpens(p, block);
    }
  }

  /** A block that is not a paragraph starts with the character its rule
      asks for; in particular the empty block is a paragraph. */
  lemma TypeOpens(block: string, p: Pattern)
    requires BlockToBlockType(block) == TypeOf(p)
    ensures |block| > 0 && Opens(p, block[0])
  {
    RuleOpens(p, block);
  }

  /** The number of `#` characters `t` starts with. */
  function HashRun(t: string): (n: nat)
    ensures n <= |t| && AllHash(t[..n])
    ensures n < |t| ==> t[n] != '#'
  {
    if |t| > 0 && t[0] == '#' then
      var n := HashRun(t[1..]);
      assert t[..n + 1] == [t[0]] + t[1..][..n];
      1 + n
    else 0
  }

  /** A run of `#` followed by something else is the whole leading run. */
  lemma {:induction false} HashRunUnique(t: string, k: nat)
    requires k < |t| && AllHash(t[..k]) && t[k] != '#'
    ensures HashRun(t) == k
    decreases k
  {
    if k > 0 {
      assert t[..k][0] == t[0];
      assert t[1..][..k - 1] == t[..k][1..];
      HashRunUnique(t[1..], k - 1);
    }
  }

  /** The heading pattern in plain terms: one to six `#` that make up the
      whole leading run, then one whitespace character (which may be a
      newline or a tab), then at least one more character and no newline
      among those. */
  predicate HeadingLine(t: string) {
    1 <= HashRun(t) <= 6 && HashRun(t) + 1 < |t| && IsSpace(t[HashRun(t)]) && '\n' !in t[HashRun(t) + 1..]
  }

  lemma HeadingShape(t: string)
    ensures FullMatch(HeadingPattern, t) <==> HeadingLine(t)
  {
    if FullMatch(HeadingPattern, t) {
      var k :| 1 <= k <= 6 && k < |t| && AllHash(t[..k]) && IsSpace(t[k]) && Dots(t[k + 1..]);
      HashRunUnique(t, k);
    }
    if HeadingLine(t) {
      var k := HashRun(t);
      assert 1 <= k <= 6 && k < |t| && AllHash(t[..k]) && IsSpace(t[k]) && Dots(t[k + 1..]);
    }
  }

  /** The block without the one newline `$` may leave after it. */
  function Body(s: string): (b: string)
    ensures |b| <= |s|
  {
    if |s| > 0 && s[|s| - 1] == '\n' then s[..|s| - 1] else s
  }

  /** No pattern matches text that ends with a newline. */
  lemma MatchEnds(p: Pattern, t: string)
    requires FullMatch(p, t)
    ensures |t| > 0 && t[|t| - 1] != '\n'
  {
    match p
    case HeadingPattern =>
      var k :| 1 <= k <= 6 && k < |t| && AllHash(t[..k]) && IsSpace(t[k]) && Dots(t[k + 1..]);
      assert t[|t| - 1] == t[k + 1..][|t| - k - 2];
    case CodePattern =>
      assert t[|t| - 1] == t[|t| - 3..][2];
    case QuotePattern =>
      assert t[|t| - 1] == t[1..][|t| - 2];
    case UnorderedPattern =>
      assert t[|t| - 1] == t[2..][|t| - 3];
    case OrderedPattern =>
      assert t[|t| - 1] == t[3..][|t| - 4];
  }

  /** Searching with the `^…$` anchors is matching the body in full. */
  lemma SearchBody(p: Pattern, s: string)
    ensures Search(p, s) <==> FullMatch(p, Body(s))
  {
    if FullMatch(p, s) {
      MatchEnds(p, s);
    }
  }

  /** Rule 1 in plain terms. */
  lemma HeadingRule(block: string)
    ensures Rule(HeadingPattern, block) <==> HeadingLine(Body(block))
  {
    SearchBody(HeadingPattern, block);
    HeadingShape(Body(block));
  }

  /** Rule 2 only accepts a single line: three backticks, at least one
      character, three backticks, and no newline except one at the end. */
  lemma CodeRule(block: string)
    ensures Rule(CodePattern, block) <==>
      |Body(block)| >= 7 && StartsWith(Body(block), "```") && Body(block)[|Body(block)| - 3..] == "```"
        && '\n' !in Body(block)
  {
    SearchBody(CodePattern, block);
    var b := Body(block);
    if |b| >= 7 && b[..3] == "```" && b[|b| - 3..] == "```" {
      assert b == b[..3] + b[3..|b| - 3] + b[|b| - 3..];
      assert '\n' !in b[..3] && '\n' !in b[|b| - 3..];
    }
  }

  /** A fenced block whose fences sit on their own lines, as a document
      writes one, is a paragraph and not code. */
  lemma FencedBlockIsParagraph(code: string)
    ensures BlockToBlockType("```\n" + code + "\n```") == Paragraph
  {
    var s := "```\n" + code + "\n```";
    assert s[0] == '`' && s[3] == '\n' && s[|s| - 1] == '`';
    assert Body(s) == s;
    assert '\n' in Body(s);
    CodeRule(s);
    if BlockToBlockType(s) != Paragraph {
      var p :| Rule(p, s);
      RuleOpens(p, s);
    }
  }

  /** Rule 3 asks of each line: `>` and at least one more character. */
  predicate QuoteLine(line: string) {
    |line| >= 2 && line[0] == '>'
  }

  /** Rule 4 asks of each line: a dash, a space and at least one more
      character. */
  predicate ItemLine(line: string) {
    |line| >= 3 && line[..2] == "- "
  }

  /** Rule 5 asks of each line: one digit, a dot, a space and at least one
      more character. The number is neither checked for order nor allowed
      a second digit. */
  predicate NumberedLine(line: string) {
    |line| >= 4 && IsDigit(line[0]) && line[1..3] == ". "
  }

  /** On a line, which holds no newline, `.+` and `$` only ask for one
      more character. */
  lemma LineSearch(line: string)
    requires '\n' !in line
    ensures Search(QuotePattern, line) <==> QuoteLine(line)
    ensures Search(UnorderedPattern, line) <==> ItemLine(line)
    ensures Search(OrderedPattern, line) <==> NumberedLine(line)
  {
    assert forall i :: 1 <= i <= |line| ==> '\n' !in line[i..] by {
      forall i | 1 <= i <= |line|
        ensures '\n' !in line[i..]
      {
        assert forall j :: 0 <= j < |line| - i ==> line[i..][j] == line[i + j];
      }
    }
  }

  /** Every line of the block is a quote line. */
  predicate QuoteBlock(block: string) {
    forall k :: 0 <= k < |Split(block, "\n")| ==> QuoteLine(Split(block, "\n")[k])
  }

  /** Rule 3 in plain terms. */
  lemma QuoteRule(block: string)
    ensures Rule(QuotePattern, block) <==> QuoteBlock(block)
  {
    var lines := Split(block, "\n");
    SplitCharFree(block, '\n');
    forall k | 0 <= k < |lines|
      ensures Search(QuotePattern, lines[k]) <==> QuoteLine(lines[k])
    {
      LineSearch(lines[k]);
    }
  }

  /** Every line of the block is a list item. */
  predicate ItemBlock(block: string) {
    forall k :: 0 <= k < |Split(block, "\n")| ==> ItemLine(Split(block, "\n")[k])
  }

  /** Rule 4 in plain terms. */
  lemma UnorderedRule(block: string)
    ensures Rule(UnorderedPattern, block) <==> ItemBlock(block)
  {
    var lines := Split(block, "\n");
    SplitCharFree(block, '\n');
    forall k | 0 <= k < |lines|
      ensures Search(UnorderedPattern, lines[k]) <==> ItemLine(lines[k])
    {
      LineSearch(lines[k]);
    }
  }

  /** Every line of the block is a numbered item. */
  predicate NumberedBlock(block: string) {
    forall k :: 0 <= k < |Split(block, "\n")| ==> NumberedLine(Split(block, "\n")[k])
  }

  /** Rule 5 in plain terms. */
  lemma OrderedRule(block: string)
    ensures Rule(OrderedPattern, block) <==> NumberedBlock(block)
  {
    var lines := Split(block, "\n");
    SplitCharFree(block, '\n');
    forall k | 0 <= k < |lines|
      ensures Search(OrderedPattern, lines[k]) <==> NumberedLine(lines[k])
    {
      LineSearch(lines[k]);
    }
  }

  /** The three blocks of a small document: a heading, a paragraph and a
      two-item list. */
  lemma DocumentExample()
    ensures BlockToBlockType("# Title") == Heading
    ensures BlockToBlockType("A paragraph.") == Paragraph
    ensures BlockToBlockType("- item one\n- item two") == UnorderedList
  {
    HeadingExample();
    if BlockToBlockType("A paragraph.") != Paragraph {
      var p :| Rule(p, "A paragraph.");
      RuleOpens(p, "A paragraph.");
    }
    ListExample("- item one\n- item two");
  }

  lemma HeadingExample()
    ensures BlockToBlockType("# Title") == Heading
  {
    var t := "# Title";
    assert HashRun(t[1..]) == 0;
    assert t[2..] == "Title";
    HeadingRule(t);
  }

  lemma ListExample(t: string)
    requires t == "- item one\n- item two"
    ensures BlockToBlockType(t) == UnorderedList
  {
    var a, b := t[..10], t[11..];
    assert t == a + "\n" + b && '\n' !in a && '\n' !in b && ItemLine(a) && ItemLine(b) by {
      assert a == "- item one" && b == "- item two";
      assert t == a + t[10..11] + b;
      assert t[10..11] == "\n";
    }
    TwoLines(a, b);
  }

  /** Two lines of a kind make a block of that kind. */
  lemma TwoLines(a: string, b: string)
    requires '\n' !in a && '\n' !in b
    ensures ItemLine(a) && ItemLine(b) ==> BlockToBlockType(a + "\n" + b) == UnorderedList
    ensures NumberedLine(a) && NumberedLine(b) ==> BlockToBlockType(a + "\n" + b) == OrderedList
    ensures Split(a + "\n" + b, "\n") == [a, b]
  {
    SplitAbsent(b, "\n");
    SplitAfter(a, "\n", b);
    UnorderedRule(a + "\n" + b);
    OrderedRule(a + "\n" + b);
  }

  /** The numbers of an ordered list are never compared: "3." may follow
      "7.". */
  lemma UncheckedNumbering(a: string, b: string)
    requires a == "7. x" && b == "3. y"
    ensures BlockToBlockType(a + "\n" + b) == OrderedList
  {
    TwoLines(a, b);
  }

  /** The empty block is a paragraph. */
  lemma EmptyBlock()
    ensures BlockToBlockType("") == Paragraph
  {
    SplitAbsent("", "\n");
    assert !QuoteLine("") && !ItemLine("") && !NumberedLine("");
    QuoteRule("");
    UnorderedRule("");
    OrderedRule("");
    HeadingRule("");
    CodeRule("");
  }

  /** The whitespace after the `#` may be a newline, so a `#` alone on a
      line followed by one line of text is a heading. */
  lemma NewlineHeading()
    ensures BlockToBlockType("#\nx") == Heading
  {
    var t := "#\nx";
    assert HashRun(t[1..]) == 0;
    assert t[2..] == "x";
    HeadingRule(t);
  }

  /** Seven `#` make no heading. */
  lemma SevenHashes()
    ensures BlockToBlockType("####### x") == Paragraph
  {
    var t := "####### x";
    assert t[7..] == " x" && HashRun(" x") == 0;
    assert HashRun(t[6..]) == 1;
    assert HashRun(t[5..]) == 2;
    assert HashRun(t[4..]) == 3;
    assert HashRun(t[3..]) == 4;
    assert HashRun(t[2..]) == 5;
    assert HashRun(t[1..]) == 6;
    assert HashRun(t) == 7;
    HeadingRule(t);
    if BlockToBlockType(t) != Paragraph {
      var p :| Rule(p, t);
      RuleOpens(p, t);
    }
  }

  /** A two-digit number breaks an ordered list. */
  lemma TwoDigitNumber()
    ensures BlockToBlockType("1. a\n10. b") == Paragraph
  {
    var a, b := "1. a", "10. b";
    SplitAbsent(b, "\n");
    SplitAfter(a, "\n", b);
    var t := a + "\n" + b;
    assert t == "1. a\n10. b";
    assert !NumberedLine(Split(t, "\n")[1]);
    OrderedRule(t);
    if BlockToBlockType(t) != Paragraph {
      var p :| Rule(p, t);
      RuleOpens(p, t);
    }
  }
}

=== FILE: delimiter.dfy ===
/** Splitting plain spans on a literal delimiter (`**`, `_`, a backtick):
    the text between a pair of delimiters becomes a span of the requested
    kind. */
module Delimiter {

  import opened Wrappers
  import opened PyStr
  import opened TextNodes

  /** The exceptions the inline parser raises. */
  datatype ParseError =
    /** An odd number of delimiters in one plain span's text. */
    | UnmatchedDelimiter(delimiter: string, text: string)
    /** `str.split` was given an empty separator (Python's ValueError). */
    | EmptySeparator

  /** The kind of the piece at index `i` of a split: odd pieces lie between
      a pair of delimiters. */
  function PieceType(i: nat, textType: TextType): TextType {
    if i % 2 == 1 then textType else Text
  }

  /** Every span is non-empty, carries no url, and is plain or of the
      requested kind. */
  predicate Tagged(nodes: seq<TextNode>, textType: TextType) {
    forall k :: 0 <= k < |nodes| ==>
      && nodes[k].text != ""
      && nodes[k].url == None
      && (nodes[k].textType == Text || nodes[k].textType == textType)
  }

  /** The pieces of a split, the first being piece number `i`, turned into
      spans; empty pieces produce no span. */
  function TagPieces(pieces: seq<string>, i: nat, textType: TextType): (nodes: seq<TextNode>)
    ensures |nodes| <= |pieces|
    ensures Tagged(nodes, textType)
    ensures Concat(TextsOf(nodes)) == Concat(pieces)
    decreases |pieces|
  {
    if |pieces| == 0 then []
    else
      var rest := TagPieces(pieces[1..], i + 1, textType);
      if pieces[0] == "" then
        rest
      else
        var head := TextNode(pieces[0], PieceType(i, textType));
        TaggedCons(head, rest, textType);
        assert TextsOf([head] + rest) == [pieces[0]] + TextsOf(rest);
        [head] + rest
  }

  lemma TaggedCons(head: TextNode, rest: seq<TextNode>, textType: TextType)
    requires head.text != "" && head.url == None && (head.textType == Text || head.textType == textType)
    requires Tagged(rest, textType)
    ensures Tagged([head] + rest, textType)
  {
    assert forall k :: 1 <= k < |rest| + 1 ==> ([head] + rest)[k] == rest[k - 1];
  }

  /** Piece `k` as span `k`: the spans alternate between plain and the
      requested kind, starting with piece number `i`. */
  function Alternate(pieces: seq<string>, i: nat, textType: TextType): (nodes: seq<TextNode>)
    ensures |nodes| == |pieces|
    decreases |pieces|
  {
    if |pieces| == 0 then [] else [TextNode(pieces[0], PieceType(i, textType))] + Alternate(pieces[1..], i + 1, textType)
  }

  lemma {:induction false} AlternateAt(pieces: seq<string>, i: nat, textType: TextType, k: nat)
    requires k < |pieces|
    ensures Alternate(pieces, i, textType)[k] == TextNode(pieces[k], PieceType(i + k, textType))
    decreases k
  {
    if k > 0 {
      AlternateAt(pieces[1..], i + 1, textType, k - 1);
    }
  }

  /** When no piece is empty, every piece becomes a span and the spans
      alternate between plain and the requested kind. */
  lemma {:induction false} TagPiecesAll(pieces: seq<string>, i: nat, textType: TextType)
    requires forall k :: 0 <= k < |pieces| ==> pieces[k] != ""
    ensures TagPieces(pieces, i, textType) == Alternate(pieces, i, textType)
    decreases |pieces|
  {
    if |pieces| > 0 {
      assert pieces[0] != "";
      TagPiecesAll(pieces[1..], i + 1, textType);
    }
  }

  /** The spans that have text, in order. */
  function NonEmpty(nodes: seq<TextNode>): seq<TextNode> {
    if |nodes| == 0 then []
    else if nodes[0].text == "" then NonEmpty(nodes[1..])
    else [nodes[0]] + NonEmpty(nodes[1..])
  }

  /** Tagging the pieces is the alternation with its empty spans dropped. */
  lemma {:induction false} TagPiecesDropsEmpty(pieces: seq<string>, i: nat, textType: TextType)
    ensures TagPieces(pieces, i, textType) == NonEmpty(Alternate(pieces, i, textType))
    decreases |pieces|
  {
    if |pieces| > 0 {
      TagPiecesDropsEmpty(pieces[1..], i + 1, textType);
      var alt := Alternate(pieces, i, textType);
      assert alt[1..] == Alternate(pieces[1..], i + 1, textType);
    }
  }

  /** Rendering the alternation of an odd number of pieces, starting with a
      plain one, puts the kind's markup back between the pieces. */
  lemma {:induction false} AlternateSource(pieces: seq<string>, i: nat, textType: TextType)
    requires textType in {Bold, Italic, Code}
    requires i % 2 == 0 && |pieces| % 2 == 1
    ensures SourceOf(Alternate(pieces, i, textType)) == Join(pieces, Mark(textType))
    decreases |pieces|
  {
    var d := Mark(textType);
    if |pieces| > 1 {
      var p0, p1, rest := pieces[0], pieces[1], pieces[2..];
      AlternateSource(rest, i + 2, textType);
      var tail := Alternate(rest, i + 2, textType);
      AlternatePair(pieces, i, textType);
      SourceOfPair(TextNode(p0, Text), TextNode(p1, textType), tail);
      assert Join(pieces, d) == (p0 + d) + ((p1 + d) + Join(rest, d)) by {
        JoinFirst(pieces, d);
        JoinFirst(pieces[1..], d);
        assert pieces[1..][1..] == rest;
      }
      Regroup(p0, d, p1, Join(rest, d));
    } else {
      assert Alternate(pieces, i, textType) == [TextNode(pieces[0], Text)];
      SourceOfSingle(TextNode(pieces[0], Text));
    }
  }

  lemma Regroup(a: string, d: string, b: string, j: string)
    ensures a + (((d + b) + d) + j) == (a + d) + ((b + d) + j)
  {
  }

  /** The first two spans of an alternation starting on a plain piece. */
  lemma AlternatePair(pieces: seq<string>, i: nat, textType: TextType)
    requires i % 2 == 0 && |pieces| > 1
    ensures Alternate(pieces, i, textType)
         == [TextNode(pieces[0], Text)] + ([TextNode(pieces[1], textType)] + Alternate(pieces[2..], i + 2, textType))
  {
    assert pieces[1..][1..] == pieces[2..];
  }

  /** The source of a plain span and a delimited span, then the rest. */
  lemma SourceOfPair(a: TextNode, b: TextNode, rest: seq<TextNode>)
    requires a.textType == Text && b.textType in {Bold, Italic, Code}
    ensures SourceOf([a] + ([b] + rest)) == a.text + (((Mark(b.textType) + b.text) + Mark(b.textType)) + SourceOf(rest))
  {
    assert ([a] + ([b] + rest))[1..] == [b] + rest;
    assert ([b] + rest)[1..] == rest;
    assert Source(b) == (Mark(b.textType) + b.text) + Mark(b.textType);
  }

  /** One input node of `split_nodes_delimiter`. */
  function SplitNode(node: TextNode, delimiter: string, textType: TextType): (r: Result<seq<TextNode>, ParseError>)
    ensures node.textType != Text ==> r == Success([node])
    ensures node.textType == Text && |delimiter| == 0 ==> r == Failure(EmptySeparator)
    ensures node.textType == Text && |delimiter| > 0 ==>
      (r.Failure? <==> Count(node.text, delimiter) % 2 == 1)
    ensures r.Failure? && |delimiter| > 0 ==> r.error == UnmatchedDelimiter(delimiter, node.text)
    ensures r.Success? && node.textType == Text && |delimiter| > 0 ==>
      Concat(TextsOf(r.value)) == RemoveAll(node.text, delimiter) && Tagged(r.value, textType)
  {
    if node.textType != Text then
      Success([node])
    else if |delimiter| == 0 then
      Failure(EmptySeparator)
    else
      var pieces := Split(node.text, delimiter);
      assert |pieces| == Count(node.text, delimiter) + 1 by {
        SplitCount(node.text, delimiter);
      }
      if |pieces| % 2 == 0 then
        Failure(UnmatchedDelimiter(delimiter, node.text))
      else
        var nodes := TagPieces(pieces, 0, textType);
        assert Concat(TextsOf(nodes)) == RemoveAll(node.text, delimiter) by {
          ConcatSplit(node.text, delimiter);
        }
        Success(nodes)
  }

  /** When no piece of the split is empty nothing is dropped: the spans
      are the pieces in order, so joining them with the delimiter gives the
      text back, and they alternate plain, requested kind, plain. */
  lemma SplitNodeAlternates(node: TextNode, delimiter: string, textType: TextType)
    requires node.textType == Text && |delimiter| > 0
    requires forall k :: 0 <= k < |Split(node.text, delimiter)| ==> Split(node.text, delimiter)[k] != ""
    requires SplitNode(node, delimiter, textType).Success?
    ensures TextsOf(SplitNode(node, delimiter, textType).value) == Split(node.text, delimiter)
    ensures Join(TextsOf(SplitNode(node, delimiter, textType).value), delimiter) == node.text
    ensures |SplitNode(node, delimiter, textType).value| == Count(node.text, delimiter) + 1
    ensures forall k :: 0 <= k < |SplitNode(node, delimiter, textType).value| ==>
      SplitNode(node, delimiter, textType).value[k].textType == PieceType(k, textType)
  {
    var pieces := Split(node.text, delimiter);
    var nodes := SplitNode(node, delimiter, textType).value;
    assert nodes == TagPieces(pieces, 0, textType);
    TagPiecesAll(pieces, 0, textType);
    forall k | 0 <= k < |pieces|
      ensures nodes[k] == TextNode(pieces[k], PieceType(k, textType))
    {
      AlternateAt(pieces, 0, textType, k);
    }
    assert TextsOf(nodes) == pieces;
    JoinSplit(node.text, delimiter);
    SplitCount(node.text, delimiter);
  }

  /** Every piece between a pair of delimiters is non-empty: no two
      delimiters that open and close a span touch. Empty plain pieces, at
      the ends or between two spans, are allowed. */
  predicate Solid(text: string, delimiter: string)
    requires |delimiter| > 0
  {
    forall k :: 0 <= k < |Split(text, delimiter)| && k % 2 == 1 ==> Split(text, delimiter)[k] != ""
  }

  /** Every plain span of the list is solid for the delimiter. */
  predicate AllSolid(nodes: seq<TextNode>, delimiter: string)
    requires |delimiter| > 0
  {
    forall k :: 0 <= k < |nodes| && nodes[k].textType == Text ==> Solid(nodes[k].text, delimiter)
  }

  /** Every span without text is plain. */
  predicate EmptyOnlyPlain(nodes: seq<TextNode>) {
    forall k :: 0 <= k < |nodes| && nodes[k].text == "" ==> nodes[k].textType == Text
  }

  /** Dropping empty plain spans does not change the rendered source. */
  lemma {:induction false} NonEmptySource(nodes: seq<TextNode>)
    requires EmptyOnlyPlain(nodes)
    ensures SourceOf(NonEmpty(nodes)) == SourceOf(nodes)
    decreases |nodes|
  {
    if |nodes| > 0 {
      var first, rest := nodes[0], nodes[1..];
      assert EmptyOnlyPlain(rest) by {
        assert forall k :: 0 <= k < |rest| ==> rest[k] == nodes[k + 1];
      }
      NonEmptySource(rest);
      assert SourceOf(nodes) == Source(first) + SourceOf(rest);
      if first.text == "" {
        assert Source(first) == "" by { assert first.textType == Text; }
        assert NonEmpty(nodes) == NonEmpty(rest);
      } else {
        assert NonEmpty(nodes) == [first] + NonEmpty(rest);
        assert ([first] + NonEmpty(rest))[1..] == NonEmpty(rest);
      }
    }
  }

  /** Tagging an odd number of pieces whose odd-numbered ones have text
      renders back to the pieces joined by the kind's markup: only empty
      plain pieces are dropped, and they render as nothing. */
  lemma TagPiecesSource(pieces: seq<string>, textType: TextType)
    requires textType in {Bold, Italic, Code} && |pieces| % 2 == 1
    requires forall k :: 0 <= k < |pieces| && k % 2 == 1 ==> pieces[k] != ""
    ensures SourceOf(TagPieces(pieces, 0, textType)) == Join(pieces, Mark(textType))
  {
    var alt := Alternate(pieces, 0, textType);
    TagPiecesDropsEmpty(pieces, 0, textType);
    assert EmptyOnlyPlain(alt) by {
      forall k | 0 <= k < |alt| && alt[k].text == ""
        ensures alt[k].textType == Text
      {
        AlternateAt(pieces, 0, textType, k);
      }
    }
    NonEmptySource(alt);
    AlternateSource(pieces, 0, textType);
  }

  /** Splitting a solid text with the kind's own markup loses nothing: the
      spans render back to the text, even when it starts or ends with a
      styled span. */
  lemma SplitNodeSource(node: TextNode, textType: TextType)
    requires node.textType == Text && textType in {Bold, Italic, Code}
    requires Solid(node.text, Mark(textType))
    requires SplitNode(node, Mark(textType), textType).Success?
    ensures SourceOf(SplitNode(node, Mark(textType), textType).value) == node.text
  {
    var d := Mark(textType);
    var pieces := Split(node.text, d);
    SplitCount(node.text, d);
    assert SplitNode(node, d, textType).value == TagPieces(pieces, 0, textType);
    TagPiecesSource(pieces, textType);
    JoinSplit(node.text, d);
  }

  /** A text that is one styled span is split without loss: the empty
      plain pieces before and after it are dropped and render as nothing. */
  lemma StyledAtStart(b: string)
    requires b != "" && '*' !in b
    ensures Solid("**" + b + "**", "**")
    ensures SplitNode(TextNode("**" + b + "**", Text), "**", Bold) == Success([TextNode(b, Bold)])
    ensures SourceOf([TextNode(b, Bold)]) == "**" + b + "**"
  {
    var t := "**" + b + "**";
    WrappedPieces(b);
    TagOne(b, Bold);
    SplitNodeOdd(t, "**", Bold);
    assert Solid(t, "**") by {
      assert Split(t, "**")[1] == b;
    }
    SourceOfSingle(TextNode(b, Bold));
  }

  /** A plain text with an odd number of pieces splits into its tagged
      pieces. */
  lemma SplitNodeOdd(text: string, delimiter: string, textType: TextType)
    requires |delimiter| > 0 && |Split(text, delimiter)| % 2 == 1
    ensures SplitNode(TextNode(text, Text), delimiter, textType) == Success(TagPieces(Split(text, delimiter), 0, textType))
  {
    SplitCount(text, delimiter);
  }

  /** Splitting `**b**` with `**` leaves `b` between two empty pieces. */
  lemma WrappedPieces(b: string)
    requires '*' !in b
    ensures Split("**" + b + "**", "**") == ["", b, ""]
  {
    var t := "**" + b + "**";
    assert Split(b + "**", "**") == [b, ""] by {
      SplitAfter(b, "**", "");
      assert b + "**" + "" == b + "**";
    }
    assert t[..2] == "**" && t[2..] == b + "**";
  }

  /** A lone non-empty piece between two empty ones is one styled span. */
  lemma TagOne(b: string, textType: TextType)
    requires b != ""
    ensures TagPieces(["", b, ""], 0, textType) == [TextNode(b, textType)]
  {
    var pieces := ["", b, ""];
    assert TagPieces([""], 2, textType) == [] by {
      assert [""][1..] == [];
    }
    assert TagPieces([b, ""], 1, textType) == [TextNode(b, textType)] by {
      assert [b, ""][1..] == [""];
    }
    assert pieces[1..] == [b, ""];
  }

  /** An empty styled span is lost: `****` yields no span at all, so its
      markup cannot be rendered back. */
  lemma EmptySpanLost(t: string)
    requires t == "****"
    ensures !Solid(t, "**")
    ensures SplitNode(TextNode(t, Text), "**", Bold) == Success([])
  {
    var rest := t[2..];
    assert t[..2] == "**" && rest == "**";
    assert rest[..2] == "**" && rest[2..] == "";
    assert Split(rest[2..], "**") == [""];
    assert Split(rest, "**") == [""] + [""];
    var pieces := Split(t, "**");
    assert pieces == [""] + Split(rest, "**");
    assert pieces == ["", "", ""];
    assert 1 < |pieces| && 1 % 2 == 1 && pieces[1] == "";
    assert TagPieces(pieces, 0, Bold) == [] by {
      assert pieces[1..] == ["", ""] && pieces[1..][1..] == [""] && pieces[1..][1..][1..] == [];
    }
  }

  /** A plain node whose text holds an odd number of delimiters. */
  predicate Unbalanced(node: TextNode, delimiter: string)
    requires |delimiter| > 0
  {
    node.textType == Text && Count(node.text, delimiter) % 2 == 1
  }

  /** The nodes a split with `textType` neither produces nor consumes. */
  function Untouched(nodes: seq<TextNode>, textType: TextType): seq<TextNode> {
    if |nodes| == 0 then []
    else if nodes[0].textType == Text || nodes[0].textType == textType then Untouched(nodes[1..], textType)
    else [nodes[0]] + Untouched(nodes[1..], textType)
  }

  lemma {:induction false} UntouchedAppend(a: seq<TextNode>, b: seq<TextNode>, textType: TextType)
    ensures Untouched(a + b, textType) == Untouched(a, textType) + Untouched(b, textType)
    decreases |a|
  {
    if |a| == 0 {
      assert a + b == b;
    } else {
      assert (a + b)[0] == a[0];
      assert (a + b)[1..] == a[1..] + b;
      UntouchedAppend(a[1..], b, textType);
    }
  }

  lemma {:induction false} UntouchedNone(nodes: seq<TextNode>, textType: TextType)
    ensures (forall k :: 0 <= k < |nodes| ==> nodes[k].textType == Text || nodes[k].textType == textType) ==>
      Untouched(nodes, textType) == []
    decreases |nodes|
  {
    if |nodes| > 0 {
      UntouchedNone(nodes[1..], textType);
    }
  }

  /** `split_nodes_delimiter`: every node split in turn, the first failure
      aborting the whole list. */
  function SplitNodesDelimiter(nodes: seq<TextNode>, delimiter: string, textType: TextType): (r: Result<seq<TextNode>, ParseError>)
    ensures |delimiter| > 0 ==>
      (r.Failure? <==> exists k :: 0 <= k < |nodes| && Unbalanced(nodes[k], delimiter))
    ensures |delimiter| == 0 ==>
      (r.Failure? <==> exists k :: 0 <= k < |nodes| && nodes[k].textType == Text)
    ensures r.Failure? ==> exists k :: (
      && 0 <= k < |nodes|
      && r == SplitNode(nodes[k], delimiter, textType)
      && forall j :: 0 <= j < k ==> SplitNode(nodes[j], delimiter, textType).Success?)
    ensures r.Success? ==> Untouched(r.value, textType) == Untouched(nodes, textType)
    decreases |nodes|
  {
    if |nodes| == 0 then
      Success([])
    else
      var head := SplitNode(nodes[0], delimiter, textType);
      var tail := SplitNodesDelimiter(nodes[1..], delimiter, textType);
      if head.Failure? then
        head
      else if tail.Failure? then
        assert forall k :: 1 <= k < |nodes| ==> nodes[k] == nodes[1..][k - 1];
        tail
      else
        assert forall k :: 1 <= k < |nodes| ==> nodes[k] == nodes[1..][k - 1];
        UntouchedAppend(head.value, tail.value, textType);
        UntouchedNone(head.value, textType);
        assert Untouched(head.value, textType) == Untouched([nodes[0]], textType);
        assert nodes == [nodes[0]] + nodes[1..];
        UntouchedAppend([nodes[0]], nodes[1..], textType);
        Success(head.value + tail.value)
  }

  /** Two results combined as a loop over their concatenated inputs would
      combine them: the first failure wins. */
  function Both(a: Result<seq<TextNode>, ParseError>, b: Result<seq<TextNode>, ParseError>): Result<seq<TextNode>, ParseError> {
    if a.Failure? then a
    else if b.Failure? then b
    else Success(a.value + b.value)
  }

  lemma SplitNodesDelimiterCons(nodes: seq<TextNode>, delimiter: string, textType: TextType)
    requires |nodes| > 0
    ensures SplitNodesDelimiter(nodes, delimiter, textType)
         == Both(SplitNode(nodes[0], delimiter, textType), SplitNodesDelimiter(nodes[1..], delimiter, textType))
  {
  }

  lemma BothAssoc(x: Result<seq<TextNode>, ParseError>, y: Result<seq<TextNode>, ParseError>, z: Result<seq<TextNode>, ParseError>)
    ensures Both(x, Both(y, z)) == Both(Both(x, y), z)
  {
    if x.Success? && y.Success? && z.Success? {
      assert x.value + (y.value + z.value) == (x.value + y.value) + z.value;
    }
  }

  /** Splitting a list is splitting its parts: nodes are handled one at a
      time and their results appear in input order. */
  lemma {:induction false} SplitNodesDelimiterAppend(a: seq<TextNode>, b: seq<TextNode>, delimiter: string, textType: TextType)
    ensures SplitNodesDelimiter(a + b, delimiter, textType)
         == Both(SplitNodesDelimiter(a, delimiter, textType), SplitNodesDelimiter(b, delimiter, textType))
    decreases |a|
  {
    if |a| == 0 {
      assert a + b == b;
      var tb := SplitNodesDelimiter(b, delimiter, textType);
      if tb.Success? {
        assert [] + tb.value == tb.value;
      }
    } else {
      assert (a + b)[0] == a[0];
      assert (a + b)[1..] == a[1..] + b;
      SplitNodesDelimiterAppend(a[1..], b, delimiter, textType);
      SplitNodesDelimiterCons(a + b, delimiter, textType);
      SplitNodesDelimiterCons(a, delimiter, textType);
      BothAssoc(SplitNode(a[0], delimiter, textType), SplitNodesDelimiter(a[1..], delimiter, textType),
                SplitNodesDelimiter(b, delimiter, textType));
    }
  }

  /** A single node is split as `SplitNode` says. */
  lemma SplitNodesDelimiterSingle(node: TextNode, delimiter: string, textType: TextType)
    ensures SplitNodesDelimiter([node], delimiter, textType) == SplitNode(node, delimiter, textType)
  {
    assert [node][1..] == [];
    var h := SplitNode(node, delimiter, textType);
    if h.Success? {
      assert h.value + [] == h.value;
    }
  }

  /** When every styled input node has text, every output node has text:
      an empty plain node yields no node at all. */
  lemma {:induction false} SplitNodesDelimiterNonEmpty(nodes: seq<TextNode>, delimiter: string, textType: TextType)
    requires forall k :: 0 <= k < |nodes| && nodes[k].textType != Text ==> nodes[k].text != ""
    requires SplitNodesDelimiter(nodes, delimiter, textType).Success?
    ensures forall k :: 0 <= k < |SplitNodesDelimiter(nodes, delimiter, textType).value| ==>
      SplitNodesDelimiter(nodes, delimiter, textType).value[k].text != ""
    decreases |nodes|
  {
    if |nodes| > 0 {
      SplitNodesDelimiterNonEmpty(nodes[1..], delimiter, textType);
    }
  }

  /** A delimiter stage for a kind that takes no url keeps "a url exactly
      on links and images": new nodes carry none, kept nodes are unchanged. */
  lemma {:induction false} SplitNodesDelimiterUrls(nodes: seq<TextNode>, delimiter: string, textType: TextType)
    requires textType !in {Link, Image}
    requires UrlsConsistent(nodes)
    requires SplitNodesDelimiter(nodes, delimiter, textType).Success?
    ensures UrlsConsistent(SplitNodesDelimiter(nodes, delimiter, textType).value)
    decreases |nodes|
  {
    if |nodes| > 0 {
      var head := SplitNode(nodes[0], delimiter, textType);
      var tail := SplitNodesDelimiter(nodes[1..], delimiter, textType);
      SplitNodesDelimiterCons(nodes, delimiter, textType);
      assert UrlsConsistent(nodes[1..]) by {
        assert forall k :: 0 <= k < |nodes[1..]| ==> nodes[1..][k] == nodes[k + 1];
      }
      SplitNodesDelimiterUrls(nodes[1..], delimiter, textType);
      assert UrlsConsistent(head.value) by {
        if nodes[0].textType != Text {
          assert head.value == [nodes[0]];
        }
      }
      UrlsConsistentAppend(head.value, tail.value);
    }
  }

  /** A delimiter stage over solid plain spans, with the kind's own markup,
      keeps the rendered source of the whole list. */
  lemma {:induction false} SplitNodesDelimiterSource(nodes: seq<TextNode>, textType: TextType)
    requires textType in {Bold, Italic, Code}
    requires AllSolid(nodes, Mark(textType))
    requires SplitNodesDelimiter(nodes, Mark(textType), textType).Success?
    ensures SourceOf(SplitNodesDelimiter(nodes, Mark(textType), textType).value) == SourceOf(nodes)
    decreases |nodes|
  {
    if |nodes| > 0 {
      var d := Mark(textType);
      var head := SplitNode(nodes[0], d, textType);
      var tail := SplitNodesDelimiter(nodes[1..], d, textType);
      SplitNodesDelimiterCons(nodes, d, textType);
      assert AllSolid(nodes[1..], d) by {
        assert forall k :: 0 <= k < |nodes[1..]| ==> nodes[1..][k] == nodes[k + 1];
      }
      SplitNodesDelimiterSource(nodes[1..], textType);
      assert SourceOf(head.value) == Source(nodes[0]) by {
        if nodes[0].textType == Text {
          SplitNodeSource(nodes[0], textType);
        } else {
          SourceOfSingle(nodes[0]);
        }
      }
      SourceOfAppend(head.value, tail.value);
    }
  }
}

=== FILE: htmlnodes.dfy ===
/** The render-tree node and its attribute serialiser. */
module HtmlNodes {

  import opened Wrappers
  import opened PyStr

  /** Attributes in insertion order. A value may be Python's `None`, as
      when a link node without a url is projected. */
  type Props = seq<(string, Option<string>)>

  /** `HTMLNode(tag=None, value=None, children=None, props=None)`: the
      constructor only stores its arguments. */
  datatype HtmlNode = HtmlNode(
    tag: Option<string> := None,
    value: Option<string> := None,
    children: Option<seq<HtmlNode>> := None,
    props: Option<Props> := None)

  /** What an f-string shows for a value: the string itself, `None` as "None". */
  function Show(v: Option<string>): string {
    match v
    case Some(s) => s
    case None => "None"
  }

  /** One attribute as the f-string ` {key}="{value}"` writes it. */
  function Attribute(key: string, value: Option<string>): string {
    " " + key + "=\"" + Show(value) + "\""
  }

  /** The attributes written one after another in order, as the loop over
      `props.items()` accumulates them. */
  function Attributes(props: Props): (r: string)
    ensures r == "" <==> |props| == 0
  {
    if |props| == 0 then ""
    else Attribute(props[0].0, props[0].1) + Attributes(props[1..])
  }

  /** The length each attribute contributes: its key, its value, a space,
      an equals sign and two quotes. */
  function AttributesLength(props: Props): nat {
    if |props| == 0 then 0
    else |props[0].0| + |Show(props[0].1)| + 4 + AttributesLength(props[1..])
  }

  /** `HTMLNode.props_to_html`: with no props (missing or empty) the method
      falls off its end and returns `None`, not an empty string. */
  function PropsToHtml(node: HtmlNode): (r: Option<string>)
    ensures r.None? <==> node.props.None? || |node.props.value| == 0
    ensures r.Some? ==> r.value == Attributes(node.props.value)
  {
    if node.props.Some? && |node.props.value| > 0 then Some(Attributes(node.props.value)) else None
  }

  /** Serialising a list is serialising its parts one after the other. */
  lemma {:induction false} AttributesAppend(a: Props, b: Props)
    ensures Attributes(a + b) == Attributes(a) + Attributes(b)
    decreases |a|
  {
    if |a| == 0 {
      assert a + b == b;
    } else {
      var head := Attribute(a[0].0, a[0].1);
      assert (a + b)[0] == a[0];
      assert (a + b)[1..] == a[1..] + b;
      AttributesAppend(a[1..], b);
      AppendAssoc(head, Attributes(a[1..]), Attributes(b));
    }
  }

  /** Non-empty output starts with a space and its length is the sum over
      the attributes of key length plus value length plus four. */
  lemma {:induction false} AttributesShape(props: Props)
    ensures |Attributes(props)| == AttributesLength(props)
    ensures |props| > 0 ==> |Attributes(props)| > 0 && Attributes(props)[0] == ' '
    decreases |props|
  {
    if |props| > 0 {
      AttributesShape(props[1..]);
    }
  }

  /** Keys and values are written verbatim: a value holding a quote reads
      the same as two separate attributes. */
  lemma NoEscaping()
    ensures PropsToHtml(HtmlNode(props := Some([("a", Some("x\" b=\"y"))])))
         == PropsToHtml(HtmlNode(props := Some([("a", Some("x")), ("b", Some("y"))])))
         == Some(" a=\"x\" b=\"y\"")
  {
    var one: Props := [("a", Some("x\" b=\"y"))];
    assert one[1..] == [];
    assert Attribute("a", Some("x\" b=\"y")) == " a=\"x\" b=\"y\"";
    assert Attributes(one) == " a=\"x\" b=\"y\"" + "";
    var two: Props := [("a", Some("x")), ("b", Some("y"))];
    var second: Props := [("b", Some("y"))];
    assert two[1..] == second;
    assert second[1..] == [];
    assert Attributes(second) == " b=\"y\"" + "";
    assert Attribute("a", Some("x")) == " a=\"x\"";
    assert Attributes(two) == " a=\"x\"" + " b=\"y\"";
    assert " a=\"x\"" + " b=\"y\"" == " a=\"x\" b=\"y\"";
    assert " a=\"x\" b=\"y\"" + "" == " a=\"x\" b=\"y\"";
    assert PropsToHtml(HtmlNode(props := Some(one))) == Some(Attributes(one));
    assert PropsToHtml(HtmlNode(props := Some(two))) == Some(Attributes(two));
  }
}

=== FILE: inline.dfy ===
/** The inline pipeline: raw text to an ordered list of typed spans. */
module Inline {

  import opened Wrappers
  import opened PyStr
  import opened TextNodes
  import opened Delimiter
  import opened Links

  /** `text_to_textnodes`: bold, italic, code, then images, then links, in
      that fixed order; an unmatched delimiter aborts the whole text. */
  function TextToTextNodes(text: string): (r: Result<seq<TextNode>, ParseError>)
    ensures r.Success? ==> PlainNonEmpty(r.value)
    ensures r.Failure? ==> r.error.UnmatchedDelimiter? && r.error.delimiter in ["**", "_", "`"]
  {
    var bold :- SplitNodesDelimiter([TextNode(text, Text)], "**", Bold);
    var italic :- SplitNodesDelimiter(bold, "_", Italic);
    var code :- SplitNodesDelimiter(italic, "`", Code);
    DelimiterStagesNonEmpty(text, bold, italic, code);
    Success(SplitNodesLink(SplitNodesImage(code)))
  }

  /** After the three delimiter stages no node, plain or not, is empty. */
  lemma DelimiterStagesNonEmpty(text: string, bold: seq<TextNode>, italic: seq<TextNode>, code: seq<TextNode>)
    requires SplitNodesDelimiter([TextNode(text, Text)], "**", Bold) == Success(bold)
    requires SplitNodesDelimiter(bold, "_", Italic) == Success(italic)
    requires SplitNodesDelimiter(italic, "`", Code) == Success(code)
    ensures PlainNonEmpty(code)
  {
    SplitNodesDelimiterSingle(TextNode(text, Text), "**", Bold);
    SplitNodesDelimiterNonEmpty(bold, "_", Italic);
    SplitNodesDelimiterNonEmpty(italic, "`", Code);
  }

  /** Every span the pipeline yields carries a url exactly when it is a
      link or an image. */
  lemma TextToTextNodesUrls(text: string)
    requires TextToTextNodes(text).Success?
    ensures UrlsConsistent(TextToTextNodes(text).value)
  {
    var start := [TextNode(text, Text)];
    assert UrlsConsistent(start);
    var bold := SplitNodesDelimiter(start, "**", Bold).value;
    SplitNodesDelimiterUrls(start, "**", Bold);
    var italic := SplitNodesDelimiter(bold, "_", Italic).value;
    SplitNodesDelimiterUrls(bold, "_", Italic);
    var code := SplitNodesDelimiter(italic, "`", Code).value;
    SplitNodesDelimiterUrls(italic, "`", Code);
    SplitNodesUrls(code, ImageMarker);
    SplitNodesUrls(SplitNodesImage(code), LinkMarker);
  }

  /** The round trip: when no delimiter stage meets an empty piece between
      a pair of delimiters, the spans rendered back as Markdown and
      concatenated give the text. */
  lemma TextToTextNodesSource(text: string, bold: seq<TextNode>, italic: seq<TextNode>, code: seq<TextNode>)
    requires SplitNodesDelimiter([TextNode(text, Text)], "**", Bold) == Success(bold)
    requires SplitNodesDelimiter(bold, "_", Italic) == Success(italic)
    requires SplitNodesDelimiter(italic, "`", Code) == Success(code)
    requires Solid(text, "**") && AllSolid(bold, "_") && AllSolid(italic, "`")
    ensures TextToTextNodes(text).Success?
    ensures SourceOf(TextToTextNodes(text).value) == text
  {
    DelimiterStagesSource(text, bold, italic, code);
    assert TextToTextNodes(text) == Success(SplitNodesLink(SplitNodesImage(code)));
  }

  /** The three delimiter stages keep the rendered source. */
  lemma DelimiterStagesSource(text: string, bold: seq<TextNode>, italic: seq<TextNode>, code: seq<TextNode>)
    requires SplitNodesDelimiter([TextNode(text, Text)], "**", Bold) == Success(bold)
    requires SplitNodesDelimiter(bold, "_", Italic) == Success(italic)
    requires SplitNodesDelimiter(italic, "`", Code) == Success(code)
    requires Solid(text, "**") && AllSolid(bold, "_") && AllSolid(italic, "`")
    ensures SourceOf(code) == text
  {
    var start := [TextNode(text, Text)];
    assert SourceOf(start) == text by {
      SourceOfSingle(TextNode(text, Text));
    }
    StageSource(start, bold, Bold);
    StageSource(bold, italic, Italic);
    StageSource(italic, code, Code);
  }

  /** One delimiter stage, its output named. */
  lemma StageSource(nodes: seq<TextNode>, out: seq<TextNode>, textType: TextType)
    requires textType in {Bold, Italic, Code}
    requires AllSolid(nodes, Mark(textType))
    requires SplitNodesDelimiter(nodes, Mark(textType), textType) == Success(out)
    ensures SourceOf(out) == SourceOf(nodes)
  {
    SplitNodesDelimiterSource(nodes, textType);
  }

  /** The empty text yields no spans at all. */
  lemma EmptyText()
    ensures TextToTextNodes("") == Success([])
  {
    var empty := TextNode("", Text);
    SplitNodesDelimiterSingle(empty, "**", Bold);
    assert Split("", "**") == [""];
    assert SplitNodesDelimiter([], "_", Italic) == Success([]);
    assert SplitNodesDelimiter([], "`", Code) == Success([]);
  }

  /** Without a `[`, neither pattern can match anywhere. */
  lemma {:induction false} NoBracketNoMatch(s: string, marker: Marker)
    requires '[' !in s
    ensures FindAll(s, marker) == []
    decreases |s|
  {
    if |s| > 0 {
      NoBracketNoMatch(s[1..], marker);
    }
  }

  /** Text free of every markup character comes back as one plain span. */
  lemma PlainTextUnchanged(s: string)
    requires s != ""
    requires '*' !in s && '_' !in s && '`' !in s && '[' !in s
    ensures TextToTextNodes(s) == Success([TextNode(s, Text)])
  {
    var node := TextNode(s, Text);
    DelimiterStageKeeps(s, "**", Bold);
    DelimiterStageKeeps(s, "_", Italic);
    DelimiterStageKeeps(s, "`", Code);
    LinkStageKeeps(s, ImageMarker);
    LinkStageKeeps(s, LinkMarker);
    assert SplitNodesLink(SplitNodesImage([node])) == [node];
  }

  /** A non-empty plain span without the delimiter's first character passes
      a delimiter stage unchanged. */
  lemma DelimiterStageKeeps(s: string, delimiter: string, textType: TextType)
    requires s != "" && |delimiter| > 0 && delimiter[0] !in s
    ensures SplitNodesDelimiter([TextNode(s, Text)], delimiter, textType) == Success([TextNode(s, Text)])
  {
    SplitAbsent(s, delimiter);
    SplitNodesDelimiterSingle(TextNode(s, Text), delimiter, textType);
    assert TagPieces([s], 0, textType) == [TextNode(s, Text)] by {
      assert [s][1..] == [];
    }
  }

  /** A plain span without `[` passes a link or image stage unchanged. */
  lemma LinkStageKeeps(s: string, marker: Marker)
    requires '[' !in s
    ensures SplitNodes([TextNode(s, Text)], marker) == [TextNode(s, Text)]
  {
    var node := TextNode(s, Text);
    NoBracketNoMatch(s, marker);
    assert SplitNodes([node], marker) == [node] + SplitNodes([], marker);
  }
}

=== FILE: links.dfy ===
/** Pulling `[anchor](url)` links and `![alt](url)` images out of plain
    spans. The two patterns differ only in the leading `!`, so one
    definition serves both, parameterised by a `Marker`. */
module Links {

  import opened Wrappers
  import opened PyStr
  import opened TextNodes

  datatype Marker = LinkMarker | ImageMarker

  /** The two capture groups of one match of the pattern. */
  datatype Match = Match(anchor: string, url: string)

  /** A first match together with the text around it. */
  datatype Found = Found(before: string, found: Match, after: string)

  function Kind(marker: Marker): TextType {
    match marker
    case LinkMarker => Link
    case ImageMarker => Image
  }

  /** The literal text of a match, as the source rebuilds it with an
      f-string before searching for it. */
  function Render(marker: Marker, m: Match): (r: string)
    ensures |r| >= 4
  {
    match marker
    case LinkMarker => LinkSource(m.anchor, m.url)
    case ImageMarker => ImageSource(m.anchor, m.url)
  }

  predicate Free(s: string, a: char, b: char) {
    forall k :: 0 <= k < |s| ==> s[k] != a && s[k] != b
  }

  /** The groups `[^\[\]]*` and `[^\(\)]*` of the two patterns. */
  predicate WellFormed(m: Match) {
    Free(m.anchor, '[', ']') && Free(m.url, '(', ')')
  }

  /** The pattern matches at the start of `s` with groups `m`. */
  predicate MatchesAt(s: string, marker: Marker, m: Match) {
    WellFormed(m) && StartsWith(s, Render(marker, m))
  }

  /** Length of the longest prefix of `s` avoiding both `a` and `b`: how far
      a greedy negated class `[^ab]*` reaches. */
  function FreeRun(s: string, a: char, b: char): (n: nat)
    ensures n <= |s| && Free(s[..n], a, b)
    ensures n < |s| ==> s[n] == a || s[n] == b
  {
    if |s| == 0 || s[0] == a || s[0] == b then 0
    else
      var n := 1 + FreeRun(s[1..], a, b);
      assert forall k :: 1 <= k < n ==> s[..n][k] == s[1..][..n - 1][k - 1];
      n
  }

  /** A free prefix stopped by `a` or `b` is the whole run. */
  lemma {:induction false} FreeRunExact(s: string, a: char, b: char, n: nat)
    requires n < |s| && Free(s[..n], a, b) && (s[n] == a || s[n] == b)
    ensures FreeRun(s, a, b) == n
    decreases n
  {
    if n > 0 {
      assert s[0] == s[..n][0];
      assert s[1..][..n - 1] == s[..n][1..];
      FreeRunExact(s[1..], a, b, n - 1);
    }
  }

  /** Where each piece of `[anchor](url)` sits. */
  lemma LinkSourceShape(anchor: string, url: string)
    ensures var r := LinkSource(anchor, url);
      && |r| == |anchor| + |url| + 4
      && r[0] == '['
      && r[1..1 + |anchor|] == anchor
      && r[1 + |anchor|] == ']'
      && r[2 + |anchor|] == '('
      && r[3 + |anchor|..3 + |anchor| + |url|] == url
      && r[3 + |anchor| + |url|] == ')'
  {
    var r := LinkSource(anchor, url);
    assert r == "[" + anchor + "](" + url + ")";
  }

  /** A string whose brackets and parentheses sit where `[a](u)` puts them
      starts with that text. */
  lemma LinkSourceAt(s: string, i: nat, j: nat)
    requires 1 <= i && i + 2 <= j < |s|
    requires s[0] == '[' && s[i] == ']' && s[i + 1] == '(' && s[j] == ')'
    ensures s[..j + 1] == LinkSource(s[1..i], s[i + 2..j])
  {
    assert s[..j + 1] == s[..1] + s[1..i] + s[i..i + 2] + s[i + 2..j] + s[j..j + 1];
    assert s[..1] == "[";
    assert s[i..i + 2] == "](";
    assert s[j..j + 1] == ")";
  }

  /** The link pattern anchored at the start of `s`. Each negated class can
      only stop at the first bracket (parenthesis) it meets, so the match,
      when there is one, is unique. */
  function LinkAt(s: string): (r: Option<Match>)
    ensures r.Some? ==> WellFormed(r.value) && StartsWith(s, LinkSource(r.value.anchor, r.value.url))
  {
    if |s| == 0 || s[0] != '[' then None
    else
      var i := 1 + FreeRun(s[1..], '[', ']');
      if i + 1 >= |s| || s[i] != ']' || s[i + 1] != '(' then None
      else
        var j := i + 2 + FreeRun(s[i + 2..], '(', ')');
        if j >= |s| || s[j] != ')' then None
        else
          LinkSourceAt(s, i, j);
          assert s[1..i] == s[1..][..i - 1];
          assert s[i + 2..j] == s[i + 2..][..j - (i + 2)];
          Some(Match(s[1..i], s[i + 2..j]))
  }

  /** Wherever the link pattern matches, `LinkAt` finds that match. */
  lemma LinkAtComplete(s: string, m: Match)
    requires WellFormed(m) && StartsWith(s, LinkSource(m.anchor, m.url))
    ensures LinkAt(s) == Some(m)
  {
    var r := LinkSource(m.anchor, m.url);
    var i := 1 + |m.anchor|;
    var j := i + 2 + |m.url|;
    assert j < |s| && s[0] == '[' && s[i] == ']' && s[i + 1] == '(' && s[j] == ')'
      && s[1..i] == m.anchor && s[i + 2..j] == m.url
    by {
      LinkSourceShape(m.anchor, m.url);
      assert s[..|r|] == r;
    }
    assert FreeRun(s[1..], '[', ']') == |m.anchor| by {
      assert s[1..][..|m.anchor|] == s[1..i];
      FreeRunExact(s[1..], '[', ']', |m.anchor|);
    }
    assert FreeRun(s[i + 2..], '(', ')') == |m.url| by {
      assert s[i + 2..][..|m.url|] == s[i + 2..j];
      FreeRunExact(s[i + 2..], '(', ')', |m.url|);
    }
    LinkAtShape(s, i, j);
  }

  /** `LinkAt` stops at the first `]` and at the first `)`. */
  lemma LinkAtShape(s: string, i: nat, j: nat)
    requires 1 <= i && i + 2 <= j < |s|
    requires s[0] == '[' && s[i] == ']' && s[i + 1] == '(' && s[j] == ')'
    requires FreeRun(s[1..], '[', ']') == i - 1 && FreeRun(s[i + 2..], '(', ')') == j - i - 2
    ensures LinkAt(s) == Some(Match(s[1..i], s[i + 2..j]))
  {
  }

  /** The pattern of `marker` anchored at the start of `s`. */
  function MatchAt(s: string, marker: Marker): (r: Option<Match>)
    ensures r.Some? ==> MatchesAt(s, marker, r.value)
  {
    match marker
    case LinkMarker => LinkAt(s)
    case ImageMarker =>
      if |s| == 0 || s[0] != '!' then None
      else
        var r := LinkAt(s[1..]);
        if r.Some? then
          BangPrefix(s, LinkSource(r.value.anchor, r.value.url));
          r
        else r
  }

  lemma BangPrefix(s: string, lit: string)
    requires |s| > 0 && s[0] == '!' && StartsWith(s[1..], lit)
    ensures StartsWith(s, "!" + lit)
  {
    assert s[..1 + |lit|] == [s[0]] + s[1..][..|lit|];
  }

  /** Completeness: wherever the pattern matches, `MatchAt` finds that match. */
  lemma MatchAtComplete(s: string, marker: Marker, m: Match)
    requires MatchesAt(s, marker, m)
    ensures MatchAt(s, marker) == Some(m)
  {
    match marker
    case LinkMarker =>
      LinkAtComplete(s, m);
    case ImageMarker =>
      var lit := LinkSource(m.anchor, m.url);
      var whole := Render(marker, m);
      assert whole == "!" + lit;
      assert s[..|whole|] == whole;
      assert s[0] == whole[0] == '!';
      assert s[1..][..|lit|] == whole[1..];
      LinkAtComplete(s[1..], m);
  }

  /** `re.findall` with the pattern: leftmost matches, scanning on after
      each one. */
  function FindAll(s: string, marker: Marker): (r: seq<Match>)
    ensures forall k :: 0 <= k < |r| ==> WellFormed(r[k])
    decreases |s|
  {
    if |s| == 0 then []
    else
      match MatchAt(s, marker)
      case Some(m) => [m] + FindAll(s[|Render(marker, m)|..], marker)
      case None => FindAll(s[1..], marker)
  }

  /** No match of the pattern starts before position `n` of `s`. */
  predicate NoMatchBefore(s: string, marker: Marker, n: nat)
    requires n <= |s|
  {
    forall k :: 0 <= k < n ==> MatchAt(s[k..], marker).None?
  }

  lemma NoMatchBeforeShift(s: string, marker: Marker, n: nat)
    requires 1 <= n <= |s|
    requires MatchAt(s, marker).None? && NoMatchBefore(s[1..], marker, n - 1)
    ensures NoMatchBefore(s, marker, n)
  {
    forall k | 0 <= k < n
      ensures MatchAt(s[k..], marker).None?
    {
      if k > 0 {
        assert s[k..] == s[1..][k - 1..];
      }
    }
  }

  /** Past a position where nothing matches, a text has a match exactly
      when the rest of it has. */
  lemma NoMatchBeforeTail(s: string, marker: Marker)
    requires |s| > 0 && MatchAt(s, marker).None?
    ensures NoMatchBefore(s, marker, |s|) <==> NoMatchBefore(s[1..], marker, |s| - 1)
  {
    if NoMatchBefore(s[1..], marker, |s| - 1) {
      NoMatchBeforeShift(s, marker, |s|);
    } else {
      var k :| 0 <= k < |s| - 1 && MatchAt(s[1..][k..], marker).Some?;
      assert s[1..][k..] == s[k + 1..];
    }
  }

  /** `findall` finds nothing exactly when the pattern matches nowhere. */
  lemma {:induction false} FindAllEmpty(s: string, marker: Marker)
    ensures FindAll(s, marker) == [] <==> NoMatchBefore(s, marker, |s|)
    decreases |s|
  {
    if |s| > 0 {
      if MatchAt(s, marker).Some? {
        assert s[0..] == s;
      } else {
        FindAllEmpty(s[1..], marker);
        NoMatchBeforeTail(s, marker);
      }
    }
  }

  /** `f` is the leftmost match in `s`, with the text before and after it. */
  predicate IsFirst(s: string, marker: Marker, f: Found) {
    && s == f.before + Render(marker, f.found) + f.after
    && MatchAt(s[|f.before|..], marker) == Some(f.found)
    && NoMatchBefore(s, marker, |f.before|)
  }

  lemma IsFirstShift(s: string, marker: Marker, f: Found)
    requires |s| > 0 && MatchAt(s, marker).None? && IsFirst(s[1..], marker, f)
    ensures IsFirst(s, marker, Found([s[0]] + f.before, f.found, f.after))
  {
    var g := Found([s[0]] + f.before, f.found, f.after);
    ShiftParts(s, f.before, Render(marker, f.found), f.after);
    NoMatchBeforeShift(s, marker, |g.before|);
  }

  /** Putting back the first character of a string split in three. */
  lemma ShiftParts(s: string, before: string, lit: string, after: string)
    requires |s| > 0 && s[1..] == before + lit + after
    ensures s == ([s[0]] + before) + lit + after
    ensures s[1 + |before|..] == s[1..][|before|..]
  {
    assert s == [s[0]] + s[1..];
    ConcatAssoc([s[0]], before, lit, after);
  }

  /** The leftmost match in `s`, if any. */
  function FirstMatch(s: string, marker: Marker): (r: Option<Found>)
    ensures r.Some? ==> IsFirst(s, marker, r.value)
    ensures r.None? ==> NoMatchBefore(s, marker, |s|)
    decreases |s|
  {
    if |s| == 0 then None
    else
      match MatchAt(s, marker)
      case Some(m) =>
        assert s == "" + Render(marker, m) + s[|Render(marker, m)|..];
        Some(Found("", m, s[|Render(marker, m)|..]))
      case None =>
        match FirstMatch(s[1..], marker)
        case None =>
          NoMatchBeforeShift(s, marker, |s|);
          None
        case Some(f) =>
          IsFirstShift(s, marker, f);
          Some(Found([s[0]] + f.before, f.found, f.after))
  }

  /** `findall` is the first match followed by `findall` of what follows it. */
  lemma {:induction false} FindAllFirst(s: string, marker: Marker)
    ensures FindAll(s, marker) == match FirstMatch(s, marker)
      case None => []
      case Some(f) => [f.found] + FindAll(f.after, marker)
    decreases |s|
  {
    if |s| > 0 && MatchAt(s, marker).None? {
      FindAllFirst(s[1..], marker);
    }
  }

  /** The first literal occurrence of a match's text is where the match is:
      any occurrence of that text further left would itself be a match. */
  lemma LiteralIsLeftmost(s: string, marker: Marker, f: Found)
    requires FirstMatch(s, marker) == Some(f)
    ensures Find(s, Render(marker, f.found)) == Some(|f.before|)
  {
    var lit := Render(marker, f.found);
    var i := |f.before|;
    assert s == f.before + lit + f.after;
    StartsWithMiddle(f.before, lit, f.after);
    forall j | 0 <= j < i
      ensures !StartsWith(s[j..], lit)
    {
      NoLiteralBeforeFirst(s, marker, f, j);
    }
    FindFirst(s, lit, i);
  }

  lemma NoLiteralBeforeFirst(s: string, marker: Marker, f: Found, j: nat)
    requires FirstMatch(s, marker) == Some(f)
    requires j < |f.before|
    ensures !StartsWith(s[j..], Render(marker, f.found))
  {
    if StartsWith(s[j..], Render(marker, f.found)) {
      assert IsFirst(s, marker, f);
      MatchAtComplete(s[j..], marker, f.found);
      assert false;
    }
  }

  /** A piece of plain text, omitted when empty. */
  function Plain(t: string): (r: seq<TextNode>)
    ensures SourceOf(r) == t
  {
    if t == "" then [] else [TextNode(t, Text)]
  }

  /** The node a match becomes. */
  function Extracted(marker: Marker, m: Match): (r: TextNode)
    ensures Source(r) == Render(marker, m)
  {
    TextNode(m.anchor, Kind(marker), Some(m.url))
  }

  /** The matches recorded in the link (image) nodes of a list. */
  function MatchesOf(nodes: seq<TextNode>, marker: Marker): seq<Match> {
    if |nodes| == 0 then []
    else if nodes[0].textType == Kind(marker) then
      [Match(nodes[0].text, nodes[0].url.GetOr(""))] + MatchesOf(nodes[1..], marker)
    else MatchesOf(nodes[1..], marker)
  }

  lemma {:induction false} MatchesOfAppend(a: seq<TextNode>, b: seq<TextNode>, marker: Marker)
    ensures MatchesOf(a + b, marker) == MatchesOf(a, marker) + MatchesOf(b, marker)
    decreases |a|
  {
    if |a| == 0 {
      assert a + b == b;
    } else {
      assert (a + b)[0] == a[0];
      assert (a + b)[1..] == a[1..] + b;
      MatchesOfAppend(a[1..], b, marker);
    }
  }

  /** What splitting a text can produce: non-empty plain fragments without
      a url, and nodes of the marker's kind. */
  predicate Pieces(nodes: seq<TextNode>, marker: Marker) {
    forall k :: 0 <= k < |nodes| ==>
      || (nodes[k].textType == Text && nodes[k].text != "" && nodes[k].url == None)
      || (nodes[k].textType == Kind(marker) && nodes[k].url.Some?)
  }

  lemma PiecesAppend(a: seq<TextNode>, b: seq<TextNode>, marker: Marker)
    requires Pieces(a, marker) && Pieces(b, marker)
    ensures Pieces(a + b, marker)
  {
    assert forall k :: |a| <= k < |a + b| ==> (a + b)[k] == b[k - |a|];
  }

  /** One step of `SplitText`: the text before the first match, the match,
      then the split of the rest. */
  function Step(marker: Marker, f: Found, rest: seq<TextNode>): seq<TextNode> {
    Plain(f.before) + [Extracted(marker, f.found)] + rest
  }

  lemma SplitTextStep(s: string, marker: Marker, f: Found, rest: seq<TextNode>)
    requires s == f.before + Render(marker, f.found) + f.after
    requires FindAll(s, marker) == [f.found] + FindAll(f.after, marker)
    requires SourceOf(rest) == f.after && MatchesOf(rest, marker) == FindAll(f.after, marker)
    requires Pieces(rest, marker)
    ensures SourceOf(Step(marker, f, rest)) == s
    ensures MatchesOf(Step(marker, f, rest), marker) == FindAll(s, marker)
    ensures Pieces(Step(marker, f, rest), marker)
  {
    var p := Plain(f.before);
    var node := Extracted(marker, f.found);
    assert SourceOf(Step(marker, f, rest)) == s by {
      SplitTextStepSource(p, node, rest);
    }
    assert MatchesOf(Step(marker, f, rest), marker) == FindAll(s, marker) by {
      PlainHasNoMatches(f.before, marker);
      SplitTextStepMatches(p, node, rest, marker);
    }
    assert Pieces(Step(marker, f, rest), marker) by {
      PiecesAppend(p, [node], marker);
      PiecesAppend(p + [node], rest, marker);
    }
  }

  lemma PlainHasNoMatches(t: string, marker: Marker)
    ensures MatchesOf(Plain(t), marker) == []
  {
    if t != "" {
      assert Plain(t)[1..] == [];
    }
  }

  lemma SplitTextStepSource(p: seq<TextNode>, node: TextNode, rest: seq<TextNode>)
    ensures SourceOf(p + [node] + rest) == SourceOf(p) + Source(node) + SourceOf(rest)
  {
    var q := p + [node];
    SourceOfAppend(q, rest);
    SourceOfAppend(p, [node]);
    SourceOfSingle(node);
  }

  lemma SplitTextStepMatches(p: seq<TextNode>, node: TextNode, rest: seq<TextNode>, marker: Marker)
    requires MatchesOf(p, marker) == [] && node.textType == Kind(marker) && node.url.Some?
    ensures MatchesOf(p + [node] + rest, marker) == [Match(node.text, node.url.value)] + MatchesOf(rest, marker)
  {
    MatchesOfAppend(p + [node], rest, marker);
    MatchesOfAppend(p, [node], marker);
    assert MatchesOf([node], marker) == [Match(node.text, node.url.value)] + MatchesOf([], marker);
  }

  /** Plain text split around every match, left to right. */
  function SplitText(s: string, marker: Marker): (r: seq<TextNode>)
    ensures SourceOf(r) == s
    ensures MatchesOf(r, marker) == FindAll(s, marker)
    ensures Pieces(r, marker)
    decreases |s|
  {
    match FirstMatch(s, marker)
    case None =>
      FindAllFirst(s, marker);
      Plain(s)
    case Some(f) =>
      var rest := SplitText(f.after, marker);
      FindAllFirst(s, marker);
      SplitTextStep(s, marker, f, rest);
      Step(marker, f, rest)
  }

  /** One input node of `split_nodes_link` / `split_nodes_image`. */
  function SplitNode(node: TextNode, marker: Marker): (r: seq<TextNode>)
    ensures node.textType != Text || FindAll(node.text, marker) == [] ==> r == [node]
    ensures SourceOf(r) == Source(node)
    ensures node.textType == Text ==> MatchesOf(r, marker) == FindAll(node.text, marker)
    ensures node.textType == Text && FindAll(node.text, marker) != [] ==> Pieces(r, marker)
  {
    if node.textType != Text || FindAll(node.text, marker) == [] then
      assert SourceOf([node]) == Source(node) + SourceOf([]);
      assert node.textType == Text ==> MatchesOf([node], marker) == [];
      [node]
    else
      SplitText(node.text, marker)
  }

  /** Every plain node has text. */
  predicate PlainNonEmpty(nodes: seq<TextNode>) {
    forall k :: 0 <= k < |nodes| && nodes[k].textType == Text ==> nodes[k].text != ""
  }

  lemma PlainNonEmptyAppend(a: seq<TextNode>, b: seq<TextNode>)
    ensures PlainNonEmpty(a + b) <==> PlainNonEmpty(a) && PlainNonEmpty(b)
  {
    if PlainNonEmpty(a + b) {
      forall k | 0 <= k < |a| && a[k].textType == Text
        ensures a[k].text != ""
      {
        assert (a + b)[k] == a[k];
      }
      forall k | 0 <= k < |b| && b[k].textType == Text
        ensures b[k].text != ""
      {
        assert (a + b)[|a| + k] == b[k];
      }
    }
    if PlainNonEmpty(a) && PlainNonEmpty(b) {
      forall k | 0 <= k < |a + b| && (a + b)[k].textType == Text
        ensures (a + b)[k].text != ""
      {
        if k < |a| { assert (a + b)[k] == a[k]; } else { assert (a + b)[k] == b[k - |a|]; }
      }
    }
  }

  /** Every node split in turn, results in input order. */
  function SplitNodes(nodes: seq<TextNode>, marker: Marker): (r: seq<TextNode>)
    ensures SourceOf(r) == SourceOf(nodes)
    ensures PlainNonEmpty(nodes) ==> PlainNonEmpty(r)
    decreases |nodes|
  {
    if |nodes| == 0 then []
    else
      var head := SplitNode(nodes[0], marker);
      var tail := SplitNodes(nodes[1..], marker);
      SourceOfAppend(head, tail);
      assert nodes == [nodes[0]] + nodes[1..];
      PlainNonEmptyAppend([nodes[0]], nodes[1..]);
      PlainNonEmptyAppend(head, tail);
      head + tail
  }

  lemma {:induction false} SplitNodesAppend(a: seq<TextNode>, b: seq<TextNode>, marker: Marker)
    ensures SplitNodes(a + b, marker) == SplitNodes(a, marker) + SplitNodes(b, marker)
    decreases |a|
  {
    if |a| == 0 {
      assert a + b == b;
    } else {
      assert (a + b)[0] == a[0];
      assert (a + b)[1..] == a[1..] + b;
      SplitNodesAppend(a[1..], b, marker);
    }
  }

  /** Splitting keeps "a url exactly on links and images": plain fragments
      carry none and every extracted node carries its target. */
  lemma {:induction false} SplitNodesUrls(nodes: seq<TextNode>, marker: Marker)
    requires UrlsConsistent(nodes)
    ensures UrlsConsistent(SplitNodes(nodes, marker))
    decreases |nodes|
  {
    if |nodes| > 0 {
      var head := SplitNode(nodes[0], marker);
      assert UrlsConsistent(nodes[1..]) by {
        assert forall k :: 0 <= k < |nodes[1..]| ==> nodes[1..][k] == nodes[k + 1];
      }
      SplitNodesUrls(nodes[1..], marker);
      assert UrlsConsistent(head) by {
        if nodes[0].textType != Text || FindAll(nodes[0].text, marker) == [] {
          assert head == [nodes[0]];
        } else {
          assert Pieces(head, marker);
        }
      }
      UrlsConsistentAppend(head, SplitNodes(nodes[1..], marker));
    }
  }

  /** `split_nodes_link` */
  function SplitNodesLink(nodes: seq<TextNode>): (r: seq<TextNode>)
    ensures SourceOf(r) == SourceOf(nodes)
    ensures PlainNonEmpty(nodes) ==> PlainNonEmpty(r)
  {
    SplitNodes(nodes, LinkMarker)
  }

  /** `split_nodes_image` */
  function SplitNodesImage(nodes: seq<TextNode>): (r: seq<TextNode>)
    ensures SourceOf(r) == SourceOf(nodes)
    ensures PlainNonEmpty(nodes) ==> PlainNonEmpty(r)
  {
    SplitNodes(nodes, ImageMarker)
  }

  // ---- the source's own loop: findall, then split on each match's text ----

  /** The loop over `findall`'s results: split the remaining text once on
      the literal text of the next match; `None` where indexing the second
      piece would raise `IndexError`. */
  function LiteralLoop(current: string, matches: seq<Match>, marker: Marker): (r: Option<seq<TextNode>>)
    ensures r.Some? ==> SourceOf(r.value) == current
    ensures r.Some? ==> MatchesOf(r.value, marker) == matches
    decreases |matches|
  {
    if |matches| == 0 then
      PlainHasNoMatches(current, marker);
      Some(Plain(current))
    else
      var pieces := SplitOnce(current, Render(marker, matches[0]));
      if |pieces| < 2 then None
      else
        match LiteralLoop(pieces[1], matches[1..], marker)
        case None => None
        case Some(rest) =>
          LiteralLoopStep(pieces[0], matches[0], rest, marker);
          assert matches == [matches[0]] + matches[1..];
          Some(Plain(pieces[0]) + [Extracted(marker, matches[0])] + rest)
  }

  /** One turn of the loop: the text before the literal, the match's node,
      then what the rest of the loop produced. */
  lemma LiteralLoopStep(before: string, m: Match, rest: seq<TextNode>, marker: Marker)
    ensures SourceOf(Plain(before) + [Extracted(marker, m)] + rest) == before + Render(marker, m) + SourceOf(rest)
    ensures MatchesOf(Plain(before) + [Extracted(marker, m)] + rest, marker) == [m] + MatchesOf(rest, marker)
  {
    var node := Extracted(marker, m);
    SplitTextStepSource(Plain(before), node, rest);
    PlainHasNoMatches(before, marker);
    SplitTextStepMatches(Plain(before), node, rest, marker);
  }

  /** The source's loop never fails and computes the leftmost scan. */
  lemma {:induction false} LiteralLoopIsSplitText(s: string, marker: Marker)
    ensures LiteralLoop(s, FindAll(s, marker), marker) == Some(SplitText(s, marker))
    decreases |s|
  {
    FindAllFirst(s, marker);
    match FirstMatch(s, marker)
    case None =>
    case Some(f) =>
      LiteralIsLeftmost(s, marker, f);
      var lit := Render(marker, f.found);
      var pieces := SplitOnce(s, lit);
      assert s[|f.before|..|f.before| + |lit|] == lit;
      assert pieces == [s[..|f.before|], s[|f.before| + |lit|..]];
      assert pieces[0] == f.before;
      assert pieces[1] == f.after;
      var all := FindAll(s, marker);
      assert all[0] == f.found && all[1..] == FindAll(f.after, marker);
      LiteralLoopIsSplitText(f.after, marker);
  }
}

=== FILE: projection.dfy ===
/** Turning one inline span into a leaf of the render tree. */
module Projection {

  import opened Wrappers
  import opened TextNodes
  import opened PyStr
  import opened HtmlNodes

  /** `LeafNode(tag, value, props)`: a render-tree node with text and no
      children. */
  datatype LeafNode = LeafNode(tag: Option<string>, value: string, props: Option<Props> := None)

  /** The tag each span kind is rendered with; plain text has none. */
  function TagOf(textType: TextType): Option<string> {
    match textType
    case Text => None
    case Bold => Some("b")
    case Italic => Some("i")
    case Code => Some("code")
    case Link => Some("a")
    case Image => Some("img")
  }

  /** `text_node_to_html_node`. A link carries its url as `href`; an image
      has an empty value and carries `src` then `alt`. */
  function TextNodeToHtmlNode(node: TextNode): (leaf: LeafNode)
    ensures leaf.tag == TagOf(node.textType)
    ensures leaf.props.Some? <==> node.textType in {Link, Image}
    ensures node.textType != Image ==> leaf.value == node.text
  {
    match node.textType
    case Text => LeafNode(None, node.text)
    case Bold => LeafNode(Some("b"), node.text)
    case Italic => LeafNode(Some("i"), node.text)
    case Code => LeafNode(Some("code"), node.text)
    case Link => LeafNode(Some("a"), node.text, Some([("href", node.url)]))
    case Image => LeafNode(Some("img"), "", Some([("src", node.url), ("alt", Some(node.text))]))
  }

  /** Reading a span back from a leaf, the partner of the projection. */
  function LeafToTextNode(leaf: LeafNode): Option<TextNode> {
    match leaf.tag
    case None => if leaf.props.None? then Some(TextNode(leaf.value, Text)) else None
    case Some(t) =>
      if t == "b" && leaf.props.None? then Some(TextNode(leaf.value, Bold))
      else if t == "i" && leaf.props.None? then Some(TextNode(leaf.value, Italic))
      else if t == "code" && leaf.props.None? then Some(TextNode(leaf.value, Code))
      else if t == "a" && leaf.props.Some? && |leaf.props.value| == 1 && leaf.props.value[0].0 == "href" then
        Some(TextNode(leaf.value, Link, leaf.props.value[0].1))
      else if t == "img" && leaf.value == "" && leaf.props.Some? && |leaf.props.value| == 2
              && leaf.props.value[0].0 == "src" && leaf.props.value[1].0 == "alt"
              && leaf.props.value[1].1.Some? then
        Some(TextNode(leaf.props.value[1].1.value, Image, leaf.props.value[0].1))
      else None
  }

  /** The url of a span that is neither a link nor an image is dropped. */
  function Projected(node: TextNode): TextNode {
    if node.textType in {Link, Image} then node else node.(url := None)
  }

  /** The projection loses nothing but the url of spans that do not use
      one: reading the leaf back gives the span again. */
  lemma ProjectionRoundTrip(node: TextNode)
    ensures LeafToTextNode(TextNodeToHtmlNode(node)) == Some(Projected(node))
    ensures node.textType in {Link, Image} || node.url == None ==>
      LeafToTextNode(TextNodeToHtmlNode(node)) == Some(node)
  {
  }

  /** Two spans that differ other than in an unused url project to
      different leaves. */
  lemma ProjectionInjective(a: TextNode, b: TextNode)
    requires TextNodeToHtmlNode(a) == TextNodeToHtmlNode(b)
    ensures Projected(a) == Projected(b)
  {
    ProjectionRoundTrip(a);
    ProjectionRoundTrip(b);
  }

  /** A leaf viewed as an `HTMLNode`: tag, value and props pass through and
      there are no children. */
  function AsHtmlNode(leaf: LeafNode): HtmlNode {
    HtmlNode(leaf.tag, Some(leaf.value), None, leaf.props)
  }

  /** The attribute text a projected span renders with: none for the four
      tag-only kinds, the url for a link, url and text for an image. An
      absent url is rendered as "None". */
  lemma ProjectionAttributes(node: TextNode)
    ensures node.textType !in {Link, Image} ==> PropsToHtml(AsHtmlNode(TextNodeToHtmlNode(node))) == None
    ensures node.textType == Link ==>
      PropsToHtml(AsHtmlNode(TextNodeToHtmlNode(node))) == Some(" href=\"" + Show(node.url) + "\"")
    ensures node.textType == Image ==>
      PropsToHtml(AsHtmlNode(TextNodeToHtmlNode(node)))
        == Some(" src=\"" + Show(node.url) + "\"" + " alt=\"" + node.text + "\"")
  {
    if node.textType == Link {
      var p: Props := [("href", node.url)];
      assert p[1..] == [];
      assert " " + "href" + "=\"" == " href=\"";
      var a := Attribute("href", node.url);
      assert Attributes(p) == a + "" == a;
    } else if node.textType == Image {
      var p: Props := [("src", node.url), ("alt", Some(node.text))];
      var alt: Props := [("alt", Some(node.text))];
      assert p[1..] == alt;
      assert alt[1..] == [];
      var a := Attribute("alt", Some(node.text));
      assert Attributes(alt) == a + "" == a;
      assert " " + "src" + "=\"" == " src=\"";
      assert " " + "alt" + "=\"" == " alt=\"";
      var src := Attribute("src", node.url);
      assert Attributes(p) == src + a;
      assert src == " src=\"" + Show(node.url) + "\"";
      assert a == " alt=\"" + node.text + "\"";
      AppendAssoc(src, " alt=\"" + node.text, "\"");
      AppendAssoc(src, " alt=\"", node.text);
    }
  }
}

=== FILE: pystr.dfy ===
/** The Python `str` built-ins the parser calls, over `string` (a sequence
    of Unicode scalar values): `split`, `split(sep, 1)`, `strip` and `join`,
    with the `isspace` test `strip` uses. `count`, `replace(sub, "")` and
    `find` are not called by the parser; they are defined here to state what
    `split` and `split(sep, 1)` compute. */
module PyStr {

  import opened Wrappers

  /** `c.isspace()`: the characters Python treats as whitespace, which are
      also the characters the `\s` class of `re` accepts in a str pattern. */
  predicate IsSpace(c: char) {
    || c == ' '
    || ('\t' <= c <= '\r')
    || ('\U{1C}' <= c <= '\U{1F}')
    || c == '\U{85}' || c == '\U{A0}' || c == '\U{1680}'
    || ('\U{2000}' <= c <= '\U{200A}')
    || c == '\U{2028}' || c == '\U{2029}' || c == '\U{202F}'
    || c == '\U{205F}' || c == '\U{3000}'
  }

  predicate AllSpace(s: string) {
    forall k :: 0 <= k < |s| ==> IsSpace(s[k])
  }

  predicate StartsWith(s: string, prefix: string) {
    |prefix| <= |s| && s[..|prefix|] == prefix
  }

  /** `"".join(parts)` */
  function Concat(parts: seq<string>): string {
    if |parts| == 0 then "" else parts[0] + Concat(parts[1..])
  }

  /** `sep.join(parts)` */
  function Join(parts: seq<string>, sep: string): string {
    if |parts| == 0 then ""
    else if |parts| == 1 then parts[0]
    else parts[0] + sep + Join(parts[1..], sep)
  }

  /** `s.split(sep)` for a non-empty `sep`: the text between the occurrences
      of `sep` found scanning left to right without overlap. */
  function Split(s: string, sep: string): (parts: seq<string>)
    requires |sep| > 0
    ensures |parts| > 0
    ensures |parts[0]| <= |s| && parts[0] == s[..|parts[0]|]
    ensures |parts| == 1 ==> parts[0] == s
    decreases |s|
  {
    if |s| < |sep| then [s]
    else if s[..|sep|] == sep then [""] + Split(s[|sep|..], sep)
    else
      var rest := Split(s[1..], sep);
      assert [s[0]] + rest[0] == s[..|rest[0]| + 1];
      [[s[0]] + rest[0]] + rest[1..]
  }

  /** `s.count(sub)`: the number of non-overlapping occurrences. */
  function Count(s: string, sub: string): nat
    requires |sub| > 0
    decreases |s|
  {
    if |s| < |sub| then 0
    else if s[..|sub|] == sub then 1 + Count(s[|sub|..], sub)
    else Count(s[1..], sub)
  }

  /** `s.replace(sub, "")`: every non-overlapping occurrence deleted. */
  function RemoveAll(s: string, sub: string): string
    requires |sub| > 0
    decreases |s|
  {
    if |s| < |sub| then s
    else if s[..|sub|] == sub then RemoveAll(s[|sub|..], sub)
    else [s[0]] + RemoveAll(s[1..], sub)
  }

  /** `s.find(sub)`, with `None` in place of -1. */
  function Find(s: string, sub: string): (r: Option<nat>)
    requires |sub| > 0
    ensures r.Some? ==> r.value + |sub| <= |s| && s[r.value..r.value + |sub|] == sub
    ensures r.Some? ==> forall k :: 0 <= k < r.value ==> !StartsWith(s[k..], sub)
    ensures r.None? ==> forall k :: 0 <= k <= |s| ==> !StartsWith(s[k..], sub)
    decreases |s|
  {
    if |s| < |sub| then None
    else if s[..|sub|] == sub then Some(0)
    else
      assert forall k :: 1 <= k <= |s| ==> s[k..] == s[1..][k - 1..];
      match Find(s[1..], sub)
      case None => None
      case Some(i) => Some(i + 1)
  }

  /** `find` returns the first position where `sub` occurs. */
  lemma FindFirst(s: string, sub: string, i: nat)
    requires |sub| > 0 && i <= |s| && StartsWith(s[i..], sub)
    requires forall j :: 0 <= j < i ==> !StartsWith(s[j..], sub)
    ensures Find(s, sub) == Some(i)
  {
    var r := Find(s, sub);
    assert r.Some?;
    var j := r.value;
    assert j >= i by {
      assert s[j..][..|sub|] == s[j..j + |sub|];
    }
    assert j <= i;
  }

  /** `s.split(sep, 1)`: one piece when `sep` does not occur, otherwise the
      text before and after its first occurrence. */
  function SplitOnce(s: string, sep: string): (parts: seq<string>)
    requires |sep| > 0
    ensures 1 <= |parts| <= 2
    ensures |parts| == 1 <==> Find(s, sep).None?
    ensures |parts| == 1 ==> parts[0] == s
    ensures |parts| == 2 ==> s == parts[0] + sep + parts[1]
    ensures |parts| == 2 ==> Find(s, sep) == Some(|parts[0]|)
  {
    match Find(s, sep)
    case None => [s]
    case Some(i) =>
      assert s == s[..i] + s[i..i + |sep|] + s[i + |sep|..];
      [s[..i], s[i + |sep|..]]
  }

  /** The trailing whitespace removed. */
  function TrimEnd(s: string): (r: string)
    ensures |r| <= |s| && r == s[..|r|]
    ensures AllSpace(s[|r|..])
    ensures |r| > 0 ==> !IsSpace(r[|r| - 1])
  {
    if |s| > 0 && IsSpace(s[|s| - 1]) then
      var r := TrimEnd(s[..|s| - 1]);
      assert s[|r|..] == s[..|s| - 1][|r|..] + [s[|s| - 1]];
      r
    else s
  }

  /** `r` is `s` with some whitespace removed from its front and some from
      its back, and nothing else. */
  predicate Trimmed(s: string, r: string) {
    exists i :: 0 <= i <= |s| && i + |r| <= |s| && s[i..i + |r|] == r && AllSpace(s[..i]) && AllSpace(s[i + |r|..])
  }

  /** `s.strip()`: leading whitespace dropped one character at a time,
      then the trailing whitespace. */
  function Strip(s: string): (r: string)
    ensures |r| <= |s|
    ensures r == "" <==> AllSpace(s)
    ensures |r| > 0 ==> !IsSpace(r[0]) && !IsSpace(r[|r| - 1])
    ensures forall c :: c in r ==> c in s
    decreases |s|
  {
    if |s| > 0 && IsSpace(s[0]) then
      var r := Strip(s[1..]);
      assert s == [s[0]] + s[1..];
      AllSpaceAppend([s[0]], s[1..]);
      assert forall c :: c in s[1..] ==> c in s;
      r
    else
      var r := TrimEnd(s);
      assert s == r + s[|r|..];
      AllSpaceAppend(r, s[|r|..]);
      r
  }

  /** What stripping keeps: the text with outer whitespace removed and
      nothing else. */
  lemma {:induction false} StripTrimmed(s: string)
    ensures Trimmed(s, Strip(s))
    decreases |s|
  {
    if |s| > 0 && IsSpace(s[0]) {
      StripTrimmed(s[1..]);
      TrimmedCons(s[0], s[1..], Strip(s[1..]));
      assert s == [s[0]] + s[1..];
    } else {
      TrimmedEnd(s, TrimEnd(s));
    }
  }

  lemma TrimmedCons(c: char, t: string, r: string)
    requires IsSpace(c) && Trimmed(t, r)
    ensures Trimmed([c] + t, r)
  {
    var s := [c] + t;
    var i :| 0 <= i <= |t| && i + |r| <= |t| && t[i..i + |r|] == r && AllSpace(t[..i]) && AllSpace(t[i + |r|..]);
    assert s[i + 1..i + 1 + |r|] == r;
    assert s[..i + 1] == [c] + t[..i];
    AllSpaceAppend([c], t[..i]);
    assert s[i + 1 + |r|..] == t[i + |r|..];
  }

  lemma TrimmedEnd(s: string, r: string)
    requires |r| <= |s| && r == s[..|r|] && AllSpace(s[|r|..])
    ensures Trimmed(s, r)
  {
    assert s[0..|r|] == r && s[..0] == [];
  }

  lemma AllSpaceAppend(a: string, b: string)
    ensures AllSpace(a + b) <==> AllSpace(a) && AllSpace(b)
  {
    if AllSpace(a) && AllSpace(b) {
      forall k | 0 <= k < |a + b|
        ensures IsSpace((a + b)[k])
      {
        if k < |a| { assert (a + b)[k] == a[k]; } else { assert (a + b)[k] == b[k - |a|]; }
      }
    }
    if AllSpace(a + b) {
      assert forall k :: 0 <= k < |a| ==> a[k] == (a + b)[k];
      assert forall k :: 0 <= k < |b| ==> b[k] == (a + b)[|a| + k];
    }
  }

  lemma StripIdempotent(s: string)
    requires |s| == 0 || (!IsSpace(s[0]) && !IsSpace(s[|s| - 1]))
    ensures Strip(s) == s
  {
    if |s| > 0 {
      assert TrimEnd(s) == s;
    }
  }

  /** A non-space first character survives stripping. */
  lemma StripKeepsFirst(s: string)
    requires |s| > 0 && !IsSpace(s[0])
    ensures |Strip(s)| > 0 && Strip(s)[0] == s[0]
  {
    var r := TrimEnd(s);
    assert r == s[..|r|];
  }

  /** A non-space last character survives stripping. */
  lemma {:induction false} StripKeepsLast(s: string)
    requires |s| > 0 && !IsSpace(s[|s| - 1])
    ensures |Strip(s)| > 0 && Strip(s)[|Strip(s)| - 1] == s[|s| - 1]
    decreases |s|
  {
    if IsSpace(s[0]) {
      StripKeepsLast(s[1..]);
    } else {
      assert TrimEnd(s) == s;
    }
  }

  lemma AppendAssoc(a: string, b: string, c: string)
    ensures (a + b) + c == a + (b + c)
  {
  }

  lemma ConcatAssoc(a: string, b: string, c: string, d: string)
    ensures a + (b + c + d) == (a + b) + c + d
  {
  }

  lemma StartsWithMiddle(a: string, b: string, c: string)
    ensures (a + b + c)[|a|..] == b + c
    ensures StartsWith((a + b + c)[|a|..], b)
  {
    assert (a + b + c)[|a|..] == b + c;
    assert (b + c)[..|b|] == b;
  }

  // ---- split, count, join and replace agree with each other ----

  /** `len(s.split(sep)) == s.count(sep) + 1` */
  lemma {:induction false} SplitCount(s: string, sep: string)
    requires |sep| > 0
    ensures |Split(s, sep)| == Count(s, sep) + 1
    decreases |s|
  {
    if |s| < |sep| {
    } else if s[..|sep|] == sep {
      SplitCount(s[|sep|..], sep);
    } else {
      SplitCount(s[1..], sep);
    }
  }

  /** A string without the separator is not split. */
  lemma SplitNone(s: string, sep: string)
    requires |sep| > 0 && Count(s, sep) == 0
    ensures Split(s, sep) == [s]
  {
    SplitCount(s, sep);
    JoinSplit(s, sep);
  }

  /** `sep.join(s.split(sep)) == s` */
  lemma {:induction false} JoinSplit(s: string, sep: string)
    requires |sep| > 0
    ensures Join(Split(s, sep), sep) == s
    decreases |s|
  {
    if |s| < |sep| {
    } else if s[..|sep|] == sep {
      JoinSplit(s[|sep|..], sep);
      JoinEmptyHead(Split(s[|sep|..], sep), sep);
      assert s == sep + s[|sep|..];
    } else {
      JoinSplit(s[1..], sep);
      JoinHead(Split(s[1..], sep), sep, s[0]);
      assert s == [s[0]] + s[1..];
    }
  }

  lemma JoinEmptyHead(parts: seq<string>, sep: string)
    requires |parts| > 0
    ensures Join([""] + parts, sep) == sep + Join(parts, sep)
  {
    var p := [""] + parts;
    assert p[1..] == parts;
  }

  lemma JoinHead(parts: seq<string>, sep: string, c: char)
    requires |parts| > 0
    ensures Join([[c] + parts[0]] + parts[1..], sep) == [c] + Join(parts, sep)
  {
    var p := [[c] + parts[0]] + parts[1..];
    assert p[1..] == parts[1..];
  }

  /** `"".join(s.split(sep)) == s.replace(sep, "")` */
  lemma {:induction false} ConcatSplit(s: string, sep: string)
    requires |sep| > 0
    ensures Concat(Split(s, sep)) == RemoveAll(s, sep)
    decreases |s|
  {
    if |s| < |sep| {
    } else if s[..|sep|] == sep {
      var rest := Split(s[|sep|..], sep);
      ConcatSplit(s[|sep|..], sep);
      assert ([""] + rest)[1..] == rest;
    } else {
      var rest := Split(s[1..], sep);
      ConcatSplit(s[1..], sep);
      var p := [[s[0]] + rest[0]] + rest[1..];
      assert p[1..] == rest[1..];
      assert Concat(rest) == rest[0] + Concat(rest[1..]);
    }
  }

  /** A string in which the separator's first character never appears is
      not split at all. */
  lemma {:induction false} SplitAbsent(s: string, sep: string)
    requires |sep| > 0 && sep[0] !in s
    ensures Split(s, sep) == [s]
    decreases |s|
  {
    if |s| >= |sep| {
      assert s[0] != sep[0];
      SplitAbsent(s[1..], sep);
      assert [s[0]] + s[1..] == s;
    }
  }

  /** No piece of a split on a single character contains that character. */
  lemma {:induction false} SplitCharFree(s: string, c: char)
    ensures forall k :: 0 <= k < |Split(s, [c])| ==> c !in Split(s, [c])[k]
    decreases |s|
  {
    if |s| >= 1 {
      var rest := Split(s[1..], [c]);
      SplitCharFree(s[1..], [c][0]);
      if s[..1] == [c] {
        assert Split(s, [c]) == [""] + rest;
      } else {
        assert s[0] != c;
        assert Split(s, [c]) == [[s[0]] + rest[0]] + rest[1..];
      }
    }
  }

  /** Splitting on a single character undoes joining on it, provided no
      piece contains that character. */
  lemma {:induction false} SplitJoinChar(parts: seq<string>, c: char)
    requires |parts| > 0
    requires forall k :: 0 <= k < |parts| ==> c !in parts[k]
    ensures Split(Join(parts, [c]), [c]) == parts
    decreases |parts|
  {
    if |parts| == 1 {
      SplitAbsent(parts[0], [c]);
    } else {
      var tail := Join(parts[1..], [c]);
      SplitJoinChar(parts[1..], c);
      SplitAfter(parts[0], [c], tail);
      assert parts == [parts[0]] + parts[1..];
    }
  }

  /** A piece in which the separator's first character does not appear
      ends at the separator that follows it. */
  lemma {:induction false} SplitAfter(x: string, sep: string, t: string)
    requires |sep| > 0 && sep[0] !in x
    ensures Split(x + sep + t, sep) == [x] + Split(t, sep)
    decreases |x|
  {
    var s := x + sep + t;
    if |x| == 0 {
      assert s == sep + t;
      assert s[..|sep|] == sep && s[|sep|..] == t;
    } else {
      SplitAfter(x[1..], sep, t);
      assert s[0] == x[0] != sep[0];
      assert s[..|sep|] != sep;
      assert s[1..] == x[1..] + sep + t;
      assert [x[0]] + x[1..] == x;
    }
  }

  /** Every character of every piece occurs in the joined string. */
  lemma {:induction false} JoinCovers(parts: seq<string>, sep: string, k: nat, c: char)
    requires k < |parts| && c in parts[k]
    ensures c in Join(parts, sep)
    decreases |parts|
  {
    if k > 0 {
      JoinCovers(parts[1..], sep, k - 1, c);
    }
  }

  /** Every character of a joined string comes from a piece or from the separator. */
  lemma {:induction false} JoinFrom(parts: seq<string>, sep: string, c: char)
    requires c in Join(parts, sep)
    ensures c in sep || exists k :: 0 <= k < |parts| && c in parts[k]
    decreases |parts|
  {
    if |parts| > 1 {
      var tail := Join(parts[1..], sep);
      if c !in parts[0] && c !in sep {
        assert c in tail;
        JoinFrom(parts[1..], sep, c);
        var k :| 0 <= k < |parts[1..]| && c in parts[1..][k];
        assert c in parts[k + 1];
      }
    }
  }

  /** The last piece of a join is its suffix. */
  lemma {:induction false} JoinLast(parts: seq<string>, sep: string)
    requires |parts| > 1
    ensures Join(parts, sep) == Join(parts[..|parts| - 1], sep) + sep + parts[|parts| - 1]
    decreases |parts|
  {
    if |parts| > 2 {
      JoinLast(parts[1..], sep);
      assert parts[1..][..|parts| - 2] == parts[..|parts| - 1][1..];
    }
  }

  /** The first piece of a join is its prefix. */
  lemma JoinFirst(parts: seq<string>, sep: string)
    requires |parts| > 1
    ensures Join(parts, sep) == parts[0] + sep + Join(parts[1..], sep)
  {
  }

  /** The first character of a join is that of the first piece, or the
      separator's when the first piece is empty. */
  lemma JoinFirstChar(parts: seq<string>, sep: string)
    requires |parts| > 0 && |sep| > 0
    ensures parts[0] != "" ==> |Join(parts, sep)| > 0 && Join(parts, sep)[0] == parts[0][0]
    ensures parts[0] == "" && |parts| > 1 ==> |Join(parts, sep)| > 0 && Join(parts, sep)[0] == sep[0]
  {
    if |parts| > 1 {
      JoinFirst(parts, sep);
    }
  }

  /** The last character of a join is that of the last piece, or the
      separator's when the last piece is empty. */
  lemma JoinLastChar(parts: seq<string>, sep: string)
    requires |parts| > 0 && |sep| > 0
    ensures parts[|parts| - 1] != "" ==>
      |Join(parts, sep)| > 0 && Join(parts, sep)[|Join(parts, sep)| - 1] == parts[|parts| - 1][|parts[|parts| - 1]| - 1]
    ensures parts[|parts| - 1] == "" && |parts| > 1 ==>
      |Join(parts, sep)| > 0 && Join(parts, sep)[|Join(parts, sep)| - 1] == sep[|sep| - 1]
  {
    if |parts| > 1 {
      JoinLast(parts, sep);
    }
  }
}

=== FILE: textnodes.dfy ===
/** The inline span model: a run of text tagged with its kind. */
module TextNodes {

  import opened Wrappers
  import opened PyStr

  datatype TextType = Text | Bold | Italic | Code | Link | Image

  /** A span of inline text; links and images carry their target in `url`,
      which defaults to `None` as the constructor's keyword argument does. */
  datatype TextNode = TextNode(text: string, textType: TextType, url: Option<string> := None)

  /** The `text` fields, in order. */
  function TextsOf(nodes: seq<TextNode>): (texts: seq<string>)
    ensures |texts| == |nodes|
    ensures forall k :: 0 <= k < |nodes| ==> texts[k] == nodes[k].text
  {
    if |nodes| == 0 then [] else [nodes[0].text] + TextsOf(nodes[1..])
  }

  /** Markdown source of a link, `[anchor](url)`. */
  function LinkSource(anchor: string, url: string): string {
    "[" + anchor + "](" + url + ")"
  }

  /** Markdown source of an image, `![alt](url)`. */
  function ImageSource(alt: string, url: string): string {
    "!" + LinkSource(alt, url)
  }

  /** The Markdown a node is read from: plain text as is, links and images in
      their bracket syntax. Only the kinds a stage produces are relied on. */
  function Source(node: TextNode): string {
    match node.textType
    case Text => node.text
    case Bold => "**" + node.text + "**"
    case Italic => "_" + node.text + "_"
    case Code => "`" + node.text + "`"
    case Link => LinkSource(node.text, node.url.GetOr(""))
    case Image => ImageSource(node.text, node.url.GetOr(""))
  }

  /** The markup that wraps a span of a delimited kind in its source. */
  function Mark(textType: TextType): string {
    match textType
    case Bold => "**"
    case Italic => "_"
    case Code => "`"
    case _ => ""
  }

  function SourceOf(nodes: seq<TextNode>): string {
    if |nodes| == 0 then "" else Source(nodes[0]) + SourceOf(nodes[1..])
  }

  lemma {:induction false} SourceOfAppend(a: seq<TextNode>, b: seq<TextNode>)
    ensures SourceOf(a + b) == SourceOf(a) + SourceOf(b)
    decreases |a|
  {
    if |a| == 0 {
      assert a + b == b;
    } else {
      assert (a + b)[0] == a[0];
      assert (a + b)[1..] == a[1..] + b;
      SourceOfAppend(a[1..], b);
    }
  }

  lemma SourceOfSingle(node: TextNode)
    ensures SourceOf([node]) == Source(node)
  {
    assert SourceOf([node]) == Source(node) + SourceOf([]);
  }

  /** A span carries a url exactly when it is a link or an image. */
  predicate UrlsConsistent(nodes: seq<TextNode>) {
    forall k :: 0 <= k < |nodes| ==> (nodes[k].url.Some? <==> nodes[k].textType in {Link, Image})
  }

  lemma UrlsConsistentAppend(a: seq<TextNode>, b: seq<TextNode>)
    requires UrlsConsistent(a) && UrlsConsistent(b)
    ensures UrlsConsistent(a + b)
  {
    assert forall k :: |a| <= k < |a + b| ==> (a + b)[k] == b[k - |a|];
  }
}

=== FILE: wrappers.dfy ===
/** Failure-compatible wrappers: `Option` for values that may be absent
    (Python's `None`) and `Result` for operations that raise. */
module Wrappers {

  datatype Option<+T> = None | Some(value: T) {

    function GetOr(default: T): T {
      match this
      case Some(v) => v
      case None => default
    }
  }

  /** `Failure` stands for a Python exception escaping the operation. */
  datatype Result<+T, +E> = Success(value: T) | Failure(error: E) {

    predicate IsFailure() {
      Failure?
    }

    function PropagateFailure<U>(): Result<U, E>
      requires Failure?
    {
      Failure(error)
    }

    function Extract(): T
      requires Success?
    {
      value
    }
  }
}
